=== FILE: README.md ===
# Bazel analysis-phase core, modelled in Dafny

This project models four pieces of Bazel:

- **Configured-target computation** (`ConfiguredTargetFunction`, in `configured_target_function.dfy`). This is the graph function that turns a (label, configuration) key into a configured target. It:
  - loads the target from its package;
  - drops the configuration of input files and package groups;
  - collects the `select()` condition labels, skipping reserved ones;
  - resolves the condition targets and the dependencies through the graph, classifying each dependency error as direct or transitive;
  - regroups the dependency values per attribute and hands them to rule construction.

  Every function returns either a value, the "incomplete" signal (`null` in the graph protocol), or a terminal error.
- **The Java library builder's command-line parser** (`JavaLibraryBuildRequest`, in `java_library_build_request.dfy`). It is an index-walking scan over the argument list. It has:
  - single-value flags and two-value flags;
  - list flags that stop at a `-` or `--` prefix;
  - the comma check on processor names;
  - the "unknown option" error.

  The calls the parser makes on the dependency-module builder are recorded in order.
- **The Xcode provider** (`XcodeProvider`, in `xcode_provider.dfy`), which covers:
  - its builder, including dependency accumulation and the checks `build()` makes;
  - the `toBuilder()` round trip;
  - the list of providers that `targets()` emits a control for;
  - the dependency selection and the path rooting of each target control.
- **iOS SDK command construction** (`IosSdkCommands`, in `ios_sdk_commands.dfy`), which covers:
  - the SDK directory;
  - the shared and compile-only clang arguments;
  - the unique parent directories of framework paths;
  - the default Xcode warning settings.

Shared modules:

- `wrappers.dfy`: `Option` and `Result`.
- `labels.dfy`: build labels.
- `paths.dfy`: path fragments as segment lists.
- `collections.dfy`:
  - `Deduplicate`, the iteration order of an insertion-ordered set;
  - `BeforeEach`, which puts a separator before each element;
  - string prefixes.

The graph environment of the configured-target function is a snapshot. It holds:

- the loaded packages;
- what the graph holds for each requested key: a value, not yet computed, or a no-such-target or no-such-package error;
- a flag saying that an earlier request found a value missing.

Four things the function delegates become fields of a `Collaborators` record of total functions and booleans:

- the dependency resolver;
- the analysis environment;
- the reserved-label test;
- rule construction.

A resolver call also reports whether it asked the graph for a value that is not there yet.

## Model

| member | source | states |
|---|---|---|
| ConfiguredTargetFunction.Compute | src/main/java/com/google/devtools/build/lib/skyframe/ConfiguredTargetFunction.java:78-118 | A missing package makes the result incomplete for any collaborators. A name missing from a loaded package is a terminal no-such-target error carrying the key's own label, and that error arises only then. An unavailable resolver makes the result incomplete. For a found target with a resolver, incomplete or failed conditions (computed in the normalized configuration) pass through unchanged, and otherwise the target is analysed with those conditions in the environment they left. A successful result implies the target was found, the resolver was available and the conditions succeeded. |
| ConfiguredTargetFunction.ComputeAnalysesInNormalizedConfiguration | src/main/java/com/google/devtools/build/lib/skyframe/ConfiguredTargetFunction.java:105-118 | A found input file or package group is analysed in the null configuration, and every other found target in the configuration its key names. |
| ConfiguredTargetFunction.ComputeIgnoresConfigurationOfFilesAndGroups | src/main/java/com/google/devtools/build/lib/skyframe/ConfiguredTargetFunction.java:101-113 | For an input file or a package group, the result is the same whatever configuration the key names. |
| ConfiguredTargetFunction.AttributeConfigLabels | src/main/java/com/google/devtools/build/lib/skyframe/ConfiguredTargetFunction.java:176-181 | For one attribute, every non-reserved `select()` key is requested under the target's configuration. No reserved key is ever requested. |
| ConfiguredTargetFunction.ConfigLabels | src/main/java/com/google/devtools/build/lib/skyframe/ConfiguredTargetFunction.java:173-182 | The requested condition labels are exactly the non-reserved `select()` keys of the rule's attributes, each under the target's configuration. |
| ConfiguredTargetFunction.OnlyReservedKeys | src/main/java/com/google/devtools/build/lib/skyframe/ConfiguredTargetFunction.java:175-185 | Nothing is requested if and only if every `select()` key of every attribute is reserved. |
| ConfiguredTargetFunction.ProvidersOf | src/main/java/com/google/devtools/build/lib/skyframe/ConfiguredTargetFunction.java:198-212 | Collection succeeds if and only if every resolved condition target exposes a config-matching provider, and then yields them in order. Otherwise the error names the first target lacking one and the requesting rule. |
| ConfiguredTargetFunction.GetConfigConditions | src/main/java/com/google/devtools/build/lib/skyframe/ConfiguredTargetFunction.java:163-216 | Non-rules, and rules whose keys are all reserved, have the empty condition set and leave the environment untouched. A successful set has no duplicates. Every failure is a dependency error or an invalid-configuration-key error naming the requesting rule. When each condition succeeds, which error it reports, and when it is incomplete are stated by the four lemmas that follow. |
| ConfiguredTargetFunction.ConditionsAreResolvedProviders | src/main/java/com/google/devtools/build/lib/skyframe/ConfiguredTargetFunction.java:187-215 | When a rule has non-reserved condition labels, a successful condition set is the providers of every condition target the resolver returned, once each in first-occurrence order, and every one of those targets has a provider. |
| ConfiguredTargetFunction.InvalidConditionNamesResolvedTarget | src/main/java/com/google/devtools/build/lib/skyframe/ConfiguredTargetFunction.java:197-212 | An invalid-configuration-key error names the first resolved condition target whose value is present but has no provider. Conversely, when every condition value is present and nothing was reported missing, a first target without a provider yields exactly that error, naming it and the requesting rule. |
| ConfiguredTargetFunction.ConditionsIncompleteWhenValuesMissing | src/main/java/com/google/devtools/build/lib/skyframe/ConfiguredTargetFunction.java:187-195 | Condition resolution is incomplete exactly when no condition target failed and either the resolver or the environment is missing a value. |
| ConfiguredTargetFunction.ConditionsSucceedIffProvided | src/main/java/com/google/devtools/build/lib/skyframe/ConfiguredTargetFunction.java:187-215 | For a rule with non-reserved condition labels, the conditions succeed if and only if every condition value is present, nothing was reported missing, and every condition target has a provider. The result is then those providers, once each in first-occurrence order, with the environment that requested the missing values. |
| ConfiguredTargetFunction.ConditionDependencyErrors | src/main/java/com/google/devtools/build/lib/skyframe/ConfiguredTargetFunction.java:187-195 | For a rule with non-reserved condition labels, the conditions fail with a missing edge if and only if some condition target failed directly. They rethrow a dependency's error if and only if none failed directly and some failed for another reason. |
| ConfiguredTargetFunction.ConditionTargetsResolve | src/main/java/com/google/devtools/build/lib/skyframe/ConfiguredTargetFunction.java:187-195 | The condition targets resolve if and only if the environment reports no missing values, the resolver reported none, and every condition target's value is present. |
| ConfiguredTargetFunction.ScanKeys | src/main/java/com/google/devtools/build/lib/skyframe/ConfiguredTargetFunction.java:239-277 | After each prefix of the keys, the state records the following. `ok` holds if and only if nothing was missing beforehand and every key so far had a value. The last direct and the last transitive error each come from some key of that kind, and are absent exactly when there is none. |
| ConfiguredTargetFunction.ScanKeysValues | src/main/java/com/google/devtools/build/lib/skyframe/ConfiguredTargetFunction.java:239-277 | After each prefix of the keys, the collected values are exactly those of the available keys among them, each as the graph holds it. |
| ConfiguredTargetFunction.ResolveDependencies | src/main/java/com/google/devtools/build/lib/skyframe/ConfiguredTargetFunction.java:225-289 | The function gives a missing-edge error from the target if and only if some dependency failed directly; the error names such a dependency and its error. Failing that, it gives a transitive error if and only if some dependency failed transitively; the error is tagged with one such dependency's key. Failing both, it is incomplete if and only if values were already missing or some dependency is not ready. Otherwise every requested key maps to its value and no other key appears. |
| ConfiguredTargetFunction.SingleTransitiveFailure | src/main/java/com/google/devtools/build/lib/skyframe/ConfiguredTargetFunction.java:281-283 | When one dependency alone fails, and not about itself, the rethrown error carries exactly that dependency's key and error. |
| ConfiguredTargetFunction.RegroupPerAttribute | src/main/java/com/google/devtools/build/lib/skyframe/ConfiguredTargetFunction.java:145-150 | Regrouping entries into a list multimap keeps, for each attribute, exactly that attribute's values in entry order. An attribute absent from the map has no entries. |
| ConfiguredTargetFunction.Regroup | src/main/java/com/google/devtools/build/lib/skyframe/ConfiguredTargetFunction.java:145-150 | The multimap's attributes are exactly those that occur in the entries. |
| ConfiguredTargetFunction.DependencyMapPerAttribute | src/main/java/com/google/devtools/build/lib/skyframe/ConfiguredTargetFunction.java:144-150 | The dependency map lists, per attribute, the configured targets of that attribute's resolver entries in resolver order. |
| ConfiguredTargetFunction.CreateConfiguredTarget | src/main/java/com/google/devtools/build/lib/skyframe/ConfiguredTargetFunction.java:298-337 | A value missing before construction makes the result incomplete. Otherwise the node fails with an analysis error for the target's label if and only if construction reported an error event. It is incomplete if and only if there was no error event but construction found a value missing. A success carries the constructed target and the registered actions. |
| ConfiguredTargetFunction.AnalyseTarget | src/main/java/com/google/devtools/build/lib/skyframe/ConfiguredTargetFunction.java:115-126 | Without a resolver the result is incomplete. Otherwise incomplete conditions make it incomplete, failed conditions fail it with the same error, and successful conditions continue to the dependency steps with the conditions' environment. A successful result implies the resolver was available and the conditions succeeded. |
| ConfiguredTargetFunction.AnalyseWithConditions | src/main/java/com/google/devtools/build/lib/skyframe/ConfiguredTargetFunction.java:128-153 | An evaluation error from the resolver is a terminal error carrying its message. No failure of these steps is a no-such-target or invalid-condition error. When the resolver succeeds, a failed dependency resolution passes its error through (a missing edge or a rethrown error) and an incomplete one makes the result incomplete. Otherwise the result is the rule construction over the dependency values regrouped by attribute, in the environment that requested the resolver's missing values. |
| ConfiguredTargetFunction.DirectDependencyErrorFails | src/main/java/com/google/devtools/build/lib/skyframe/ConfiguredTargetFunction.java:137-142 | If any resolver entry's dependency failed directly, the computation fails with a missing-edge error from the analysed target, whatever rule construction would do. |
| ConfiguredTargetFunction.SuccessCarriesConstruction | src/main/java/com/google/devtools/build/lib/skyframe/ConfiguredTargetFunction.java:144-153 | A successful value is exactly the constructed target and its actions. Construction was given a dependency map holding, per attribute, the configured targets of the resolver's entries in order. |
| ConfiguredTargetFunction.ComputeFailsOnDirectDependencyError | src/main/java/com/google/devtools/build/lib/skyframe/ConfiguredTargetFunction.java:120-142 | When a found target's dependency failed directly, computing the target fails with a missing-edge error from it. |
| ConfiguredTargetFunction.ComputeSuccessCarriesConstruction | src/main/java/com/google/devtools/build/lib/skyframe/ConfiguredTargetFunction.java:78-153 | A successful computation is exactly what rule construction produced for the found target in its normalised configuration, given the resolved conditions and a dependency map holding, per attribute, the configured targets of the resolver's entries in order. |
| JavaLibraryBuildRequest.CollectFrom | src/java_tools/buildjar/java/com/google/devtools/build/buildjar/JavaLibraryBuildRequest.java:313-321 | The collection loop resumed at index j collects a contiguous run of arguments none of which has the prefix. It stops just before the argument that has it, or at the end of the list. |
| JavaLibraryBuildRequest.CollectFlagArguments | src/java_tools/buildjar/java/com/google/devtools/build/buildjar/JavaLibraryBuildRequest.java:312-322 | The function appends exactly the arguments after the flag up to the first one with the terminator prefix. It returns one before that terminator, or the list length, and nothing appended has the prefix. |
| JavaLibraryBuildRequest.CollectStopsAtFirstTerminator | src/java_tools/buildjar/java/com/google/devtools/build/buildjar/JavaLibraryBuildRequest.java:312-322 | Given the first terminator index k (or the list end), the collected arguments are exactly `args[start+1..k)`, and the returned index is k-1 (or the list length). |
| JavaLibraryBuildRequest.CollectProcessorArguments | src/java_tools/buildjar/java/com/google/devtools/build/buildjar/JavaLibraryBuildRequest.java:337-349 | The call succeeds if and only if no newly collected name contains a comma, and then appends them to the names already present. Otherwise the error names the first newly collected name that contains a comma. |
| JavaLibraryBuildRequest.SelectDefault | src/java_tools/buildjar/java/com/google/devtools/build/buildjar/JavaLibraryBuildRequest.java:250-251 | A string switch takes its default branch if and only if no case label equals the string. |
| JavaLibraryBuildRequest.SelectCase | src/java_tools/buildjar/java/com/google/devtools/build/buildjar/JavaLibraryBuildRequest.java:361-407 | A string switch runs the case whose label equals the string, provided no earlier label does. |
| JavaLibraryBuildRequest.MainSelected | src/java_tools/buildjar/java/com/google/devtools/build/buildjar/JavaLibraryBuildRequest.java:204-249 | Every label of the main loop's switch selects its own case, so no label repeats. |
| JavaLibraryBuildRequest.ArgSelected | src/java_tools/buildjar/java/com/google/devtools/build/buildjar/JavaLibraryBuildRequest.java:361-404 | Every label of the second switch selects its own case there. |
| JavaLibraryBuildRequest.ArgNotMain | src/java_tools/buildjar/java/com/google/devtools/build/buildjar/JavaLibraryBuildRequest.java:204-251 | A flag of the second switch takes the main switch's default branch: the two switches share no label. |
| JavaLibraryBuildRequest.MainStep | src/java_tools/buildjar/java/com/google/devtools/build/buildjar/JavaLibraryBuildRequest.java:204-249 | A flag of the main switch runs that switch's case for it. |
| JavaLibraryBuildRequest.ArgStep | src/java_tools/buildjar/java/com/google/devtools/build/buildjar/JavaLibraryBuildRequest.java:250-255 | A flag of the second switch is passed to the second switch and runs its case there; the unknown-option check does not fire. |
| JavaLibraryBuildRequest.ArgCase | src/java_tools/buildjar/java/com/google/devtools/build/buildjar/JavaLibraryBuildRequest.java:361-404 | Every case of the second switch that succeeds returns an index no earlier than the flag and no later than the list length. |
| JavaLibraryBuildRequest.MainCase | src/java_tools/buildjar/java/com/google/devtools/build/buildjar/JavaLibraryBuildRequest.java:205-249 | The same holds for every case of the main switch. |
| JavaLibraryBuildRequest.ProcessArg | src/java_tools/buildjar/java/com/google/devtools/build/buildjar/JavaLibraryBuildRequest.java:359-408 | A known flag's case returns an index no earlier than the flag, and an answer of -1 leaves the request unchanged. |
| JavaLibraryBuildRequest.ProcessArgDefault | src/java_tools/buildjar/java/com/google/devtools/build/buildjar/JavaLibraryBuildRequest.java:359-408 | The second switch answers -1, leaving the request unchanged, if and only if none of its labels is the flag. |
| JavaLibraryBuildRequest.ProcessFlag | src/java_tools/buildjar/java/com/google/devtools/build/buildjar/JavaLibraryBuildRequest.java:200-256 | Every handled flag consumes itself and possibly later arguments, never moving the index backwards or past the list. |
| JavaLibraryBuildRequest.UnknownOptionRejected | src/java_tools/buildjar/java/com/google/devtools/build/buildjar/JavaLibraryBuildRequest.java:250-255 | An argument at a flag position that neither switch knows ends the parse with the error "unknown option : '<arg>'". |
| JavaLibraryBuildRequest.OutputConsumesOneArgument | src/java_tools/buildjar/java/com/google/devtools/build/buildjar/JavaLibraryBuildRequest.java:382-384 | `--output` takes exactly the next argument as the output jar, and that argument is the last one consumed. Without a next argument it fails with a missing-argument error. |
| JavaLibraryBuildRequest.ClassDirConsumesOneArgument | src/java_tools/buildjar/java/com/google/devtools/build/buildjar/JavaLibraryBuildRequest.java:385-387 | `--classdir` takes exactly the next argument as the class directory, or fails with a missing-argument error. |
| JavaLibraryBuildRequest.ClassPathConsumesOneArgument | src/java_tools/buildjar/java/com/google/devtools/build/buildjar/JavaLibraryBuildRequest.java:374-376 | `--classpath` takes exactly the next argument as the class path, or fails with a missing-argument error. |
| JavaLibraryBuildRequest.CompressJarConsumesNothing | src/java_tools/buildjar/java/com/google/devtools/build/buildjar/JavaLibraryBuildRequest.java:396-398 | `--compress_jar` consumes no argument and sets the compress flag. |
| JavaLibraryBuildRequest.LaterOutputOverridesEarlier | src/java_tools/buildjar/java/com/google/devtools/build/buildjar/JavaLibraryBuildRequest.java:382-384 | With `--output` given twice, parsing succeeds and the later value wins. |
| JavaLibraryBuildRequest.DirectDependencyConsumesTwoArguments | src/java_tools/buildjar/java/com/google/devtools/build/buildjar/JavaLibraryBuildRequest.java:212-217 | `--direct_dependency` passes the next two arguments (jar, target) to the builder and consumes exactly those. With fewer than two left it fails naming the flag. |
| JavaLibraryBuildRequest.IndirectDependencyConsumesTwoArguments | src/java_tools/buildjar/java/com/google/devtools/build/buildjar/JavaLibraryBuildRequest.java:218-223 | The same holds for `--indirect_dependency`. |
| JavaLibraryBuildRequest.StrictJavaDepsConsumesOneArgument | src/java_tools/buildjar/java/com/google/devtools/build/buildjar/JavaLibraryBuildRequest.java:224-226 | `--strict_java_deps` consumes exactly the next argument and passes it to the dependency-module builder as the strict-dependencies mode. Without a next argument, the parse fails with the flag's missing-argument error. |
| JavaLibraryBuildRequest.OutputDepsConsumesOneArgument | src/java_tools/buildjar/java/com/google/devtools/build/buildjar/JavaLibraryBuildRequest.java:227-229 | `--output_deps` does the same, passing the argument as the dependencies output file. |
| JavaLibraryBuildRequest.OutputDepsProtoConsumesOneArgument | src/java_tools/buildjar/java/com/google/devtools/build/buildjar/JavaLibraryBuildRequest.java:230-232 | `--output_deps_proto` does the same, passing the argument as the dependencies proto file. |
| JavaLibraryBuildRequest.ToolContextProtoConsumesOneArgument | src/java_tools/buildjar/java/com/google/devtools/build/buildjar/JavaLibraryBuildRequest.java:233-235 | `--tool_context_proto` consumes exactly the next argument as the tool context proto file, or fails with its missing-argument error. |
| JavaLibraryBuildRequest.ReduceClasspathConsumesNothing | src/java_tools/buildjar/java/com/google/devtools/build/buildjar/JavaLibraryBuildRequest.java:241-243 | `--reduce_classpath` consumes no argument and records one reduce-classpath call on the dependency-module builder. |
| JavaLibraryBuildRequest.SourceGenDirConsumesOneArgument | src/java_tools/buildjar/java/com/google/devtools/build/buildjar/JavaLibraryBuildRequest.java:244-246 | `--sourcegendir` consumes exactly the next argument as the generated-source directory, or fails with its missing-argument error. |
| JavaLibraryBuildRequest.GeneratedSourcesOutputConsumesOneArgument | src/java_tools/buildjar/java/com/google/devtools/build/buildjar/JavaLibraryBuildRequest.java:247-249 | `--generated_sources_output` consumes exactly the next argument as the generated-sources jar, or fails with its missing-argument error. |
| JavaLibraryBuildRequest.SourceJarsStopAtDash | src/java_tools/buildjar/java/com/google/devtools/build/buildjar/JavaLibraryBuildRequest.java:364-365 | `--source_jars` appends exactly the arguments up to the next one starting with "-" to the source jars, and the loop resumes at that argument. |
| JavaLibraryBuildRequest.MessagesStopAtDash | src/java_tools/buildjar/java/com/google/devtools/build/buildjar/JavaLibraryBuildRequest.java:366-367 | `--messages` does the same for the message files. |
| JavaLibraryBuildRequest.ResourceJarsStopAtDash | src/java_tools/buildjar/java/com/google/devtools/build/buildjar/JavaLibraryBuildRequest.java:370-371 | `--resource_jars` does the same for the resource jars. |
| JavaLibraryBuildRequest.ClasspathResourcesStopAtDash | src/java_tools/buildjar/java/com/google/devtools/build/buildjar/JavaLibraryBuildRequest.java:372-373 | `--classpath_resources` does the same for the root resource files. |
| JavaLibraryBuildRequest.ProcessorPathConsumesOneArgument | src/java_tools/buildjar/java/com/google/devtools/build/buildjar/JavaLibraryBuildRequest.java:377-379 | `--processorpath` consumes exactly the next argument as the processor path, or fails with its missing-argument error. |
| JavaLibraryBuildRequest.TempDirConsumesOneArgument | src/java_tools/buildjar/java/com/google/devtools/build/buildjar/JavaLibraryBuildRequest.java:388-390 | `--tempdir` consumes exactly the next argument as the temporary directory, or fails with its missing-argument error. |
| JavaLibraryBuildRequest.GenDirConsumesOneArgument | src/java_tools/buildjar/java/com/google/devtools/build/buildjar/JavaLibraryBuildRequest.java:391-393 | `--gendir` consumes exactly the next argument as the generated-files directory, or fails with its missing-argument error. |
| JavaLibraryBuildRequest.RuleKindConsumesOneArgument | src/java_tools/buildjar/java/com/google/devtools/build/buildjar/JavaLibraryBuildRequest.java:399-401 | `--rule_kind` consumes exactly the next argument as the rule kind, or fails with its missing-argument error. |
| JavaLibraryBuildRequest.TargetLabelConsumesOneArgument | src/java_tools/buildjar/java/com/google/devtools/build/buildjar/JavaLibraryBuildRequest.java:402-404 | `--target_label` consumes exactly the next argument as the target label, or fails with its missing-argument error. |
| JavaLibraryBuildRequest.SourcesStopAtDash | src/java_tools/buildjar/java/com/google/devtools/build/buildjar/JavaLibraryBuildRequest.java:362-363 | `--sources` appends exactly the arguments up to the next one starting with "-". The last argument consumed is the one before it, so parsing resumes at it. |
| JavaLibraryBuildRequest.ResourcesStopAtDash | src/java_tools/buildjar/java/com/google/devtools/build/buildjar/JavaLibraryBuildRequest.java:368-369 | `--resources` appends exactly the arguments up to the next one starting with "-". |
| JavaLibraryBuildRequest.JavacOptsStopAtDoubleDash | src/java_tools/buildjar/java/com/google/devtools/build/buildjar/JavaLibraryBuildRequest.java:205-211 | `--javacopts` appends exactly the arguments up to the next one starting with "--", so single-dash javac options are kept. |
| JavaLibraryBuildRequest.DepsArtifactsStopAtDoubleDash | src/java_tools/buildjar/java/com/google/devtools/build/buildjar/JavaLibraryBuildRequest.java:236-240 | `--deps_artifacts` hands the arguments up to the next "--" flag to the builder as one call. |
| JavaLibraryBuildRequest.PostProcessorStopsAtDoubleDash | src/java_tools/buildjar/java/com/google/devtools/build/buildjar/JavaLibraryBuildRequest.java:394-395 | `--post_processor` records the next argument as the name and the arguments after it up to the next "--" flag as its arguments. |
| JavaLibraryBuildRequest.PostProcessorArguments | src/java_tools/buildjar/java/com/google/devtools/build/buildjar/JavaLibraryBuildRequest.java:410-421 | Adding a post processor reads the name after the flag, then collects from the argument after the name up to the next "--" flag, and consumes exactly those. |
| JavaLibraryBuildRequest.ProcessorsRejectCommas | src/java_tools/buildjar/java/com/google/devtools/build/buildjar/JavaLibraryBuildRequest.java:380-381 | `--processors` fails with the comma error when any name it collects before the next "-" flag contains a comma. |
| JavaLibraryBuildRequest.ProcessorsAppendNames | src/java_tools/buildjar/java/com/google/devtools/build/buildjar/JavaLibraryBuildRequest.java:380-381 | When none of those names contains a comma, `--processors` appends exactly them, and parsing resumes at the terminator. |
| JavaLibraryBuildRequest.ParseKeepsDefaults | src/java_tools/buildjar/java/com/google/devtools/build/buildjar/JavaLibraryBuildRequest.java:200-256 | No flag other than `--classdir`, `--tempdir` or `--processorpath` changes the class directory, temporary directory or processor path. |
| JavaLibraryBuildRequest.DefaultsWithoutOverrides | src/java_tools/buildjar/java/com/google/devtools/build/buildjar/JavaLibraryBuildRequest.java:46-52 | Without those three flags, a successful parse leaves the class directory "classes", the temporary directory "_tmp" and the processor path empty. |
| XcodeProvider.Builder.AddDependencies | src/main/java/com/google/devtools/build/lib/rules/objc/XcodeProvider.java:104-110 | The dependency set afterwards holds exactly the earlier members, every added dependency, and every member of an added dependency's own set. No other field changes. |
| XcodeProvider.Builder.Build | src/main/java/com/google/devtools/build/lib/rules/objc/XcodeProvider.java:170-202 | Building succeeds if and only if there is no test host or the product is a unit test, and label, product type and Objective-C provider are set. The failures are checked in that order: test host, label, product type, Objective-C provider. A built provider is valid. It carries every builder field unchanged, and its dependency set is the builder's dependencies once each, in first-insertion order. |
| XcodeProvider.ToBuilderRoundTrip | src/main/java/com/google/devtools/build/lib/rules/objc/XcodeProvider.java:207-221 | For a valid provider, `toBuilder().build()` gives back the same provider. |
| XcodeProvider.TargetProviders | src/main/java/com/google/devtools/build/lib/rules/objc/XcodeProvider.java:228-235 | The providers start with this one and hold no duplicates. They are exactly this provider, its dependencies, and the test host with its dependencies. |
| XcodeProvider.TargetProvidersOrder | src/main/java/com/google/devtools/build/lib/rules/objc/XcodeProvider.java:228-235 | Each provider's position is fixed by its first occurrence in that candidate sequence. |
| XcodeProvider.Targets | src/main/java/com/google/devtools/build/lib/rules/objc/XcodeProvider.java:237-241 | There is one target control per emitted provider, in the same order. |
| XcodeProvider.ArchiveDependencyControls | src/main/java/com/google/devtools/build/lib/rules/objc/XcodeProvider.java:277-289 | There is a non-test-host dependency control for every dependency with a compiled archive, and only for those. The controls are those of the archived dependencies' positions, taken in increasing order. |
| XcodeProvider.ArchiveControlsFollowDependencyOrder | src/main/java/com/google/devtools/build/lib/rules/objc/XcodeProvider.java:277-289 | The loop over the dependencies from any position on emits, as its i-th control, the one for the i-th later dependency that has a compiled archive. |
| XcodeProvider.ArchivedPositionsIncrease | src/main/java/com/google/devtools/build/lib/rules/objc/XcodeProvider.java:277-289 | The positions the controls are taken from increase strictly, so controls appear in dependency order and each dependency contributes at most once. |
| XcodeProvider.ArchivedPositionsComplete | src/main/java/com/google/devtools/build/lib/rules/objc/XcodeProvider.java:277-289 | Every dependency with a compiled archive from the given position on has its position listed. |
| XcodeProvider.LinkedDependencies | src/main/java/com/google/devtools/build/lib/rules/objc/XcodeProvider.java:276-296 | Products that cannot link get no dependencies. Linking products get one control per archived dependency, in dependency order, then the test host's control, flagged, when there is a host. |
| XcodeProvider.RootEach | src/main/java/com/google/devtools/build/lib/rules/objc/XcodeProvider.java:327-342 | Each path is placed under the build-setting prefix, and the empty path becomes the prefix itself. The prefix must start with "$" and must not end with "/". |
| XcodeProvider.RootEachRoundTrip | src/main/java/com/google/devtools/build/lib/rules/objc/XcodeProvider.java:327-342 | Every rooted path starts with the prefix, and stripping the prefix recovers the original path string. |
| XcodeProvider.TargetControlOf | src/main/java/com/google/devtools/build/lib/rules/objc/XcodeProvider.java:247-320 | The control carries the provider's label and name, and links exactly `LinkedDependencies`. Its compiler options are the defaults then the provider's own, and its build settings are the provider's then the default warnings. The SDK dylibs get "libc++" appended if and only if the code uses C++. |
| IosSdkCommands.SdkDir | src/main/java/com/google/devtools/build/lib/rules/objc/IosSdkCommands.java:84-92 | The SDK directory lies inside the platform's `Developer/SDKs` folder and ends in ".sdk". |
| IosSdkCommands.SdkDirRoundTrip | src/main/java/com/google/devtools/build/lib/rules/objc/IosSdkCommands.java:84-92 | The SDK directory is the platform's SDK prefix followed by the version and ".sdk", so the version can be read back from it. |
| IosSdkCommands.SdkDirDeterminesVersion | src/main/java/com/google/devtools/build/lib/rules/objc/IosSdkCommands.java:84-92 | For one platform, equal SDK directories mean equal SDK versions. |
| IosSdkCommands.UniqueParentDirectories | src/main/java/com/google/devtools/build/lib/rules/objc/IosSdkCommands.java:94-100 | The result holds every path's parent directory, only those, and each once. |
| IosSdkCommands.UniqueParentDirectoriesOrder | src/main/java/com/google/devtools/build/lib/rules/objc/IosSdkCommands.java:94-100 | The parents appear in the order of their first occurrence. |
| IosSdkCommands.CommonLinkAndCompileArgsForClang | src/main/java/com/google/devtools/build/lib/rules/objc/IosSdkCommands.java:102-124 | The simulator minimum-version flag comes first if and only if the platform is the simulator, and "-g" follows if and only if debug symbols are on. Then come the architecture, the sysroot and the SDK framework directory, and then "-F" before each unique framework parent directory. |
| IosSdkCommands.PlatformSpecificCompileArgsForClang | src/main/java/com/google/devtools/build/lib/rules/objc/IosSdkCommands.java:134-150 | A device gets no extra flags. The simulator gets exactly "-fexceptions", "-fasm-blocks", "-fobjc-abi-version=2" and "-fobjc-legacy-dispatch", in that order, to match the OS X Objective-C runtime. |
| IosSdkCommands.CompileArgsForClang | src/main/java/com/google/devtools/build/lib/rules/objc/IosSdkCommands.java:126-150 | The compile flags are every default warning flag in table order, then "-O0", then the platform-specific flags. For a device nothing follows "-O0"; for the simulator the four runtime flags follow it. |
| IosSdkCommands.DefaultWarningsForXcode | src/main/java/com/google/devtools/build/lib/rules/objc/IosSdkCommands.java:152-160 | There is one build setting per default warning, in table order, named after it and set to "YES". |
| IosSdkCommands.DefaultWarningsForXcodeDistinct | src/main/java/com/google/devtools/build/lib/rules/objc/IosSdkCommands.java:54-70 | The warning setting names are pairwise distinct. |
| IosSdkCommands.DefaultWarningFlagsAreWarnings | src/main/java/com/google/devtools/build/lib/rules/objc/IosSdkCommands.java:54-70 | Every default warning value is a "-W" clang flag. |
| Collections.Deduplicate | src/main/java/com/google/devtools/build/lib/rules/objc/IosSdkCommands.java:94-100 | An insertion-ordered set built from a sequence holds every element, nothing else, and no element twice. |
| Collections.DeduplicateOrder | src/main/java/com/google/devtools/build/lib/rules/objc/XcodeProvider.java:229-235 | The insertion-ordered set lists elements in the order of their first insertion. |
| Collections.BeforeEach | src/main/java/com/google/devtools/build/lib/rules/objc/IosSdkCommands.java:120-122 | The separator comes before each element: position 2i holds the separator and position 2i+1 holds element i. |

## Left out

- The file-expanding argument pre-pass (`expandArguments`, `@file` arguments) reads files. The parser is modelled on the already expanded list.
- Listener events are not modelled: neither the missing-edge, invalid-key or evaluation-error events the configured-target function reports, nor the replay of construction events. Only whether construction reported an error event is kept.
- The text of `TargetUtils.formatMissingEdge`, of `Label.toString` and of the target description in the invalid-key message is not part of the model. Those errors are kept as structured values naming the same labels and targets.
- The graph engine itself is not modelled. This covers scheduling, restarts, interruption, and how `getValuesOrThrow` marks values missing. The environment is a snapshot. Each collaborator that can request graph values reports with a boolean whether it found one missing.
- The arguments of `createAnalysisEnvironment` are not modelled: the artifact owner configuration, the extended sanity checks and whether actions may be registered. Neither is disabling the analysis environment. Its internal consistency assertions and the not-null check on the constructed target are taken as given; the constructed target is never absent here.
- ConfiguredTargetFunction.ResolveDependencies: when several dependencies fail, the contract names *some* failing dependency rather than a particular one. The source iterates a hash map whose order is unspecified, and the model scans the keys in first-request order.
- XcodeProvider.Builder.AddDependencies: the order of the built dependency set is taken as first-insertion order. The iteration order of a stable-order nested set is not part of the model.
- XcodeProvider.TargetProviders: providers are compared structurally, whereas the source's insertion-ordered set of providers compares them by object identity.
- XcodeProvider.TargetControlOf: the contract states the label, name, linked dependencies, SDK dylibs, header-path counts, compiler options and build settings. The linker options, sources, header files, Info.plist and precompiled header are computed but not stated. The Objective-C provider's imported libraries, SDK frameworks, framework, asset-catalog, data-model and bundle-import directories, and general resources are not modelled, because `ObjcProvider` is not part of this model.
- IosSdkCommands.UniqueParentDirectories: requires every framework path to be non-empty. The parent of the empty path fragment is `null` in the source, which the model's path fragments have no value for.
- IosSdkCommands.CommonLinkAndCompileArgsForClang: requires the same, for the same reason.
- Path fragments are modelled only as relative lists of segments. Absolute paths, and hence absolute framework or header search paths, cannot be expressed; their printed form would lack the leading "/".
- The platform's Info.plist name is a field of the configuration, because `Platform.getNameInPlist` is not part of this model. Product types other than application, bundle and unit test are kept only by their identifier.
- JavaLibraryBuildRequest.ProcessFlag: its own contract states only the index bounds. What each of the 28 flags does is stated by one per-flag lemma listed above, each named after its flag.
- JavaLibraryBuildRequest.ArgCase: its contract states only the index bounds. Each of its 17 cases has its own per-flag lemma above.
- JavaLibraryBuildRequest.MainCase: its contract states only the index bounds. Each of its 11 cases has its own per-flag lemma above.
- `DependencyModule.Builder.build()` and the post-processor factory are not modelled. The builder calls and the post-processor specifications are recorded in order instead. Compiler plugins are left out too.

=== FILE: collections.dfy ===
/** Sequence utilities that the modelled Java code obtains from its collection
    libraries: string prefixes, insertion-ordered sets (`LinkedHashSet`,
    `ImmutableSet.Builder`) and interspersing a separator before each element. */
module Collections {

  predicate StartsWith(s: string, prefix: string) {
    |prefix| <= |s| && s[..|prefix|] == prefix
  }

  predicate EndsWith(s: string, suffix: string) {
    |suffix| <= |s| && s[|s| - |suffix|..] == suffix
  }

  predicate NoDuplicates<T(==)>(s: seq<T>) {
    forall i, j :: 0 <= i < j < |s| ==> s[i] != s[j]
  }

  /** Position of the first occurrence of `x` in `s`. */
  function IndexOf<T(==)>(s: seq<T>, x: T): (i: nat)
    requires x in s
    ensures i < |s| && s[i] == x
    ensures forall j :: 0 <= j < i ==> s[j] != x
  {
    if s[0] == x then 0 else 1 + IndexOf(s[1..], x)
  }

  /** The elements of `s` in first-occurrence order, each once: the iteration
      order of an insertion-ordered set to which the elements of `s` were
      added one after another. */
  function Deduplicate<T(==)>(s: seq<T>): (r: seq<T>)
    ensures forall i :: 0 <= i < |s| ==> s[i] in r
    ensures forall i :: 0 <= i < |r| ==> r[i] in s
    ensures NoDuplicates(r)
    ensures |r| <= |s|
  {
    if |s| == 0 then []
    else
      var p := Deduplicate(s[..|s| - 1]);
      if s[|s| - 1] in p then p else p + [s[|s| - 1]]
  }

  lemma IndexOfPrefix<T>(s: seq<T>, n: nat, x: T)
    requires n <= |s| && x in s[..n]
    ensures IndexOf(s, x) == IndexOf(s[..n], x)
  {
    var k := IndexOf(s[..n], x);
    assert s[k] == x;
    assert forall j :: 0 <= j < k ==> s[..n][j] == s[j];
  }

  /** `r` lists its elements in the order of their first occurrences in `s`. */
  predicate InFirstOccurrenceOrder<T(==)>(r: seq<T>, s: seq<T>)
    requires forall i :: 0 <= i < |r| ==> r[i] in s
  {
    forall i, j :: 0 <= i < j < |r| ==> IndexOf(s, r[i]) < IndexOf(s, r[j])
  }

  /** Deduplication keeps the relative order of first occurrences. */
  lemma {:induction false} DeduplicateOrder<T>(s: seq<T>)
    ensures InFirstOccurrenceOrder(Deduplicate(s), s)
  {
    if |s| > 0 {
      DeduplicateOrder(s[..|s| - 1]);
      DeduplicateOrderStep(s);
    }
  }

  lemma DeduplicateOrderStep<T>(s: seq<T>)
    requires |s| > 0
    requires InFirstOccurrenceOrder(Deduplicate(s[..|s| - 1]), s[..|s| - 1])
    ensures InFirstOccurrenceOrder(Deduplicate(s), s)
  {
    var n := |s| - 1;
    var p := Deduplicate(s[..n]);
    OrderLiftsFromPrefix(p, s, n);
    if s[n] in p {
      assert Deduplicate(s) == p;
    } else {
      assert s[n] !in s[..n];
      IndexOfFresh(s, n);
      OrderExtends(p, s, s[n]);
      assert Deduplicate(s) == p + [s[n]];
    }
  }

  /** An element not seen before position `n` first occurs at `n`. */
  lemma IndexOfFresh<T>(s: seq<T>, n: nat)
    requires n < |s| && s[n] !in s[..n]
    ensures IndexOf(s, s[n]) == n
  {
    assert forall j :: 0 <= j < n ==> s[..n][j] == s[j];
  }

  lemma OrderLiftsFromPrefix<T>(p: seq<T>, s: seq<T>, n: nat)
    requires n <= |s|
    requires forall i :: 0 <= i < |p| ==> p[i] in s[..n]
    requires InFirstOccurrenceOrder(p, s[..n])
    ensures forall i :: 0 <= i < |p| ==> p[i] in s && IndexOf(s, p[i]) < n
    ensures InFirstOccurrenceOrder(p, s)
  {
    forall i | 0 <= i < |p|
      ensures p[i] in s && IndexOf(s, p[i]) == IndexOf(s[..n], p[i])
    {
      IndexOfPrefix(s, n, p[i]);
    }
  }

  lemma OrderExtends<T>(p: seq<T>, s: seq<T>, x: T)
    requires x in s
    requires forall i :: 0 <= i < |p| ==> p[i] in s && IndexOf(s, p[i]) < IndexOf(s, x)
    requires InFirstOccurrenceOrder(p, s)
    ensures InFirstOccurrenceOrder(p + [x], s)
  {
    var r := p + [x];
    forall i, j | 0 <= i < j < |r|
      ensures IndexOf(s, r[i]) < IndexOf(s, r[j])
    {
      assert r[i] == p[i];
      if j < |p| {
        assert r[j] == p[j];
      }
    }
  }

  /** The first element survives deduplication in first position. */
  lemma {:induction false} DeduplicateHead<T>(s: seq<T>)
    requires |s| > 0
    ensures Deduplicate(s)[0] == s[0]
  {
    if |s| > 1 {
      DeduplicateHead(s[..|s| - 1]);
    }
  }

  /** A sequence without repetitions is its own deduplication. */
  lemma {:induction false} DeduplicateOfDistinct<T>(s: seq<T>)
    requires NoDuplicates(s)
    ensures Deduplicate(s) == s
  {
    if |s| > 0 {
      var front := s[..|s| - 1];
      DeduplicateOfDistinct(front);
      assert s[|s| - 1] !in front;
      assert front + [s[|s| - 1]] == s;
    }
  }

  /** `[sep, xs[0], sep, xs[1], ...]`: a separator placed before each element. */
  function BeforeEach<T>(sep: T, xs: seq<T>): (r: seq<T>)
    ensures |r| == 2 * |xs|
    ensures forall i :: 0 <= i < |xs| ==> r[2 * i] == sep && r[2 * i + 1] == xs[i]
  {
    seq(2 * |xs|, k requires 0 <= k < 2 * |xs| => if k % 2 == 0 then sep else xs[k / 2])
  }
}

=== FILE: configured_target_function.dfy ===
/** The function that turns a (label, configuration) key into a configured
    target: it loads the target from its package, resolves the configuration
    conditions and the dependencies through the dependency graph, classifies
    dependency errors as direct or transitive, and hands the regrouped
    dependencies to the rule implementation.

    The graph environment is a snapshot: loaded packages, the entries of the
    requested configured-target keys (absent keys are not yet computed), and
    the flag saying that some earlier request found a value missing.
    Everything this function delegates to — the dependency resolver, the
    analysis environment and rule construction — is a field of
    `Collaborators`. */
module ConfiguredTargetFunction {
  import opened Wrappers
  import opened Collections
  import opened Labels

  datatype BuildConfiguration = BuildConfiguration(name: string)

  /** `None` is the null configuration. */
  type Configuration = Option<BuildConfiguration>

  /** An attribute together with the labels its `select()` keys name. */
  datatype Attribute = Attribute(name: string, configurabilityKeys: seq<Label>)

  datatype Target =
    | Rule(targetLabel: Label, attributes: seq<Attribute>)
    | InputFile(targetLabel: Label)
    | OutputFile(targetLabel: Label)
    | PackageGroup(targetLabel: Label)

  datatype Package = Package(name: string, targets: map<string, Target>)

  datatype ConfigMatchingProvider = ConfigMatchingProvider(targetLabel: Label)

  /** A configured target, with the configuration-condition provider it
      exposes, if any. */
  datatype ConfiguredTarget = ConfiguredTarget(targetLabel: Label, configuration: Configuration,
                                               configMatching: Option<ConfigMatchingProvider>)

  datatype Action = Action(mnemonic: string)

  datatype ConfiguredTargetValue = ConfiguredTargetValue(configuredTarget: ConfiguredTarget, actions: seq<Action>)

  /** The graph key of a configured target. */
  datatype Key = Key(targetLabel: Label, configuration: Configuration)

  datatype TargetAndConfiguration = TargetAndConfiguration(target: Target, configuration: Configuration)

  datatype LabelAndConfiguration = LabelAndConfiguration(targetLabel: Label, configuration: Configuration)

  /** The two checked exceptions a dependency's entry may carry. */
  datatype NoSuchThing =
    | NoSuchTarget(targetLabel: Label)
    | NoSuchPackage(packageName: string)

  /** What the graph holds for one requested key. */
  datatype DepLookup =
    | Value(value: ConfiguredTargetValue)
    | Missing
    | Failed(error: NoSuchThing)

  datatype Environment = Environment(packages: map<string, Package>, entries: map<Key, DepLookup>,
                                     valuesMissing: bool)
  {
    function Lookup(k: Key): DepLookup {
      if k in entries then entries[k] else Missing
    }

    /** The environment after a request that found values missing when `missing` holds. */
    function Requested(missing: bool): (e: Environment)
      ensures e.valuesMissing <==> valuesMissing || missing
      ensures e.packages == packages && e.entries == entries
    {
      this.(valuesMissing := valuesMissing || missing)
    }
  }

  datatype EventKind = ErrorEvent | WarningEvent | InfoEvent

  datatype Event = Event(kind: EventKind, message: string)

  /** What rule construction produced: the target, the events it reported,
      the actions it registered, and whether it asked for a missing value. */
  datatype Construction = Construction(configuredTarget: ConfiguredTarget, events: seq<Event>,
                                       actions: seq<Action>, valuesMissing: bool)

  /** A list multimap as its entries, in insertion order. */
  type Entries<V> = seq<(Attribute, V)>

  /** The collaborators. The resolver calls report whether they asked the
      graph for a value that is not there yet. */
  datatype Collaborators = Collaborators(
    resolverAvailable: bool,
    isReservedLabel: Label -> bool,
    resolveRuleLabels: (TargetAndConfiguration, Entries<LabelAndConfiguration>)
                         -> (seq<TargetAndConfiguration>, bool),
    dependentNodeMap: (TargetAndConfiguration, seq<ConfigMatchingProvider>)
                        -> Result<(Entries<TargetAndConfiguration>, bool), string>,
    analysisEnvironmentMissing: bool,
    createAndInitialize: (Target, Configuration, map<Attribute, seq<ConfiguredTarget>>,
                          seq<ConfigMatchingProvider>) -> Construction)

  /** The errors the function throws. */
  datatype ComputeError =
    | NoSuchTargetError(targetLabel: Label)
      /** A direct dependency does not exist: the missing edge from `from` to `to`. */
    | MissingEdge(from: Label, to: Label, cause: NoSuchThing)
      /** A dependency failed because of its own dependencies; rethrown for `childKey`. */
    | TransitiveError(childKey: Key, cause: NoSuchThing)
    | EvalError(message: string)
    | InvalidConfigurationKey(badTarget: Target, requester: Label)
    | AnalysisFailed(targetLabel: Label)

  /** A result, the "not yet" signal (`null` in the graph protocol), or an error. */
  datatype Outcome<+T> = Ok(value: T) | Incomplete | Fail(error: ComputeError)
  {
    predicate IsFailure() {
      !Ok?
    }

    function PropagateFailure<U>(): Outcome<U>
      requires IsFailure()
    {
      if Incomplete? then Incomplete else Fail(error)
    }

    function Extract(): T
      requires Ok?
    {
      value
    }
  }

  function ToKey(tc: TargetAndConfiguration): (k: Key)
    ensures k.targetLabel == tc.target.targetLabel && k.configuration == tc.configuration
  {
    Key(tc.target.targetLabel, tc.configuration)
  }

  function DepKeys(deps: seq<TargetAndConfiguration>): (r: seq<Key>)
    ensures |r| == |deps|
    ensures forall i :: 0 <= i < |deps| ==> r[i] == ToKey(deps[i])
  {
    seq(|deps|, i requires 0 <= i < |deps| => ToKey(deps[i]))
  }

  /** An error names the dependency itself (rather than something further
      down) when it is a missing target with the dependency's own label, or a
      missing package with the dependency's own package. */
  predicate IsDirect(depLabel: Label, e: NoSuchThing) {
    match e
    case NoSuchTarget(l) => l == depLabel
    case NoSuchPackage(p) => p == depLabel.packageName
  }

  predicate Available(env: Environment, k: Key) {
    env.Lookup(k).Value?
  }

  predicate DirectFailure(env: Environment, k: Key) {
    env.Lookup(k).Failed? && IsDirect(k.targetLabel, env.Lookup(k).error)
  }

  predicate TransitiveFailure(env: Environment, k: Key) {
    env.Lookup(k).Failed? && !IsDirect(k.targetLabel, env.Lookup(k).error)
  }

  /** The loop state of `ResolveDependencies`: whether every value so far was
      present, the last direct error, the last transitive error with its key,
      and the values collected. */
  datatype ScanState = ScanState(ok: bool, direct: Option<(Label, NoSuchThing)>,
                                 transitive: Option<(Key, NoSuchThing)>,
                                 values: map<Key, ConfiguredTargetValue>)

  /** The state after visiting the first `n` keys. */
  function ScanKeys(env: Environment, keys: seq<Key>, n: nat): (s: ScanState)
    requires n <= |keys|
    ensures s.ok <==> !env.valuesMissing && forall i :: 0 <= i < n ==> Available(env, keys[i])
    ensures s.direct.None? <==> forall i :: 0 <= i < n ==> !DirectFailure(env, keys[i])
    ensures s.direct.Some? ==>
              exists i :: 0 <= i < n && DirectFailure(env, keys[i])
                          && s.direct.value == (keys[i].targetLabel, env.Lookup(keys[i]).error)
    ensures s.transitive.None? <==> forall i :: 0 <= i < n ==> !TransitiveFailure(env, keys[i])
    ensures s.transitive.Some? ==>
              exists i :: 0 <= i < n && TransitiveFailure(env, keys[i])
                          && s.transitive.value == (keys[i], env.Lookup(keys[i]).error)
  {
    if n == 0 then ScanState(!env.valuesMissing, None, None, map[])
    else
      Visit(env, ScanKeys(env, keys, n - 1), keys[n - 1])
  }

  /** The values collected after `n` keys are exactly those of the available
      keys among them, each as the graph holds it. */
  lemma {:induction false} ScanKeysValues(env: Environment, keys: seq<Key>, n: nat)
    requires n <= |keys|
    ensures var s := ScanKeys(env, keys, n);
            && (forall k :: k in s.values <==> exists i :: 0 <= i < n && keys[i] == k && Available(env, k))
            && forall k :: k in s.values ==> Available(env, k) && s.values[k] == env.Lookup(k).value
  {
    if n > 0 {
      ScanKeysValues(env, keys, n - 1);
      var prev := ScanKeys(env, keys, n - 1);
      var s := Visit(env, prev, keys[n - 1]);
      assert ScanKeys(env, keys, n) == s;
      forall k | k in s.values
        ensures exists i :: 0 <= i < n && keys[i] == k && Available(env, k)
      {
        if k != keys[n - 1] {
          assert k in prev.values;
        }
      }
      forall k | exists i :: 0 <= i < n && keys[i] == k && Available(env, k)
        ensures k in s.values
      {
        var i :| 0 <= i < n && keys[i] == k && Available(env, k);
        if i < n - 1 && k != keys[n - 1] {
          assert k in prev.values;
        }
      }
    }
  }

  /** One loop iteration: the state after looking up `k`. */
  function Visit(env: Environment, s: ScanState, k: Key): (t: ScanState)
    ensures t.ok == (s.ok && Available(env, k))
    ensures t.direct == if DirectFailure(env, k) then Some((k.targetLabel, env.Lookup(k).error)) else s.direct
    ensures t.transitive == if TransitiveFailure(env, k) then Some((k, env.Lookup(k).error)) else s.transitive
    ensures t.values == if Available(env, k) then s.values[k := env.Lookup(k).value] else s.values
  {
    match env.Lookup(k)
    case Value(v) => s.(values := s.values[k := v])
    case Missing => s.(ok := false)
    case Failed(e) =>
      if IsDirect(k.targetLabel, e) then s.(ok := false, direct := Some((k.targetLabel, e)))
      else s.(ok := false, transitive := Some((k, e)))
  }

  /** Requests the configured targets of `deps` from the graph. A direct error
      wins over a transitive one, a transitive error over an incomplete
      result; otherwise the result maps every requested key to its value. */
  function ResolveDependencies(env: Environment, deps: seq<TargetAndConfiguration>, target: Target)
    : (r: Outcome<map<Key, ConfiguredTargetValue>>)
    ensures (r.Fail? && r.error.MissingEdge?) <==>
              exists i :: 0 <= i < |deps| && DirectFailure(env, ToKey(deps[i]))
    ensures r.Fail? && r.error.MissingEdge? ==>
              r.error.from == target.targetLabel &&
              exists i :: 0 <= i < |deps| && DirectFailure(env, ToKey(deps[i]))
                          && r.error.to == deps[i].target.targetLabel
                          && r.error.cause == env.Lookup(ToKey(deps[i])).error
    ensures (r.Fail? && r.error.TransitiveError?) <==>
              (forall i :: 0 <= i < |deps| ==> !DirectFailure(env, ToKey(deps[i])))
              && exists i :: 0 <= i < |deps| && TransitiveFailure(env, ToKey(deps[i]))
    ensures r.Fail? && r.error.TransitiveError? ==>
              exists i :: 0 <= i < |deps| && TransitiveFailure(env, ToKey(deps[i]))
                          && r.error.childKey == ToKey(deps[i])
                          && r.error.cause == env.Lookup(ToKey(deps[i])).error
    ensures r.Fail? ==> r.error.MissingEdge? || r.error.TransitiveError?
    ensures r.Incomplete? <==>
              (forall i :: 0 <= i < |deps| ==> !env.Lookup(ToKey(deps[i])).Failed?)
              && (env.valuesMissing || exists i :: 0 <= i < |deps| && !Available(env, ToKey(deps[i])))
    ensures r.Ok? ==>
              (forall i :: 0 <= i < |deps| ==>
                 ToKey(deps[i]) in r.value && r.value[ToKey(deps[i])] == env.Lookup(ToKey(deps[i])).value)
              && forall k :: k in r.value ==> exists i :: 0 <= i < |deps| && ToKey(deps[i]) == k
  {
    var keys := Deduplicate(DepKeys(deps));
    var s := ScanKeys(env, keys, |keys|);
    ScanDirect(env, deps, keys);
    ScanTransitive(env, deps, keys);
    ScanOk(env, deps, keys);
    ScanValues(env, deps, keys);
    if s.direct.Some? then Fail(MissingEdge(target.targetLabel, s.direct.value.0, s.direct.value.1))
    else if s.transitive.Some? then Fail(TransitiveError(s.transitive.value.0, s.transitive.value.1))
    else if !s.ok then Incomplete
    else Ok(s.values)
  }

  /** With a single failing dependency whose error is not about itself, the
      error is rethrown tagged with that dependency's key. */
  lemma SingleTransitiveFailure(env: Environment, deps: seq<TargetAndConfiguration>, target: Target, i: nat)
    requires i < |deps| && TransitiveFailure(env, ToKey(deps[i]))
    requires forall j :: 0 <= j < |deps| && env.Lookup(ToKey(deps[j])).Failed? ==> ToKey(deps[j]) == ToKey(deps[i])
    ensures ResolveDependencies(env, deps, target)
            == Fail(TransitiveError(ToKey(deps[i]), env.Lookup(ToKey(deps[i])).error))
  {
  }

  /** Every requested key comes from some dependency. */
  lemma KeyFromDependency(deps: seq<TargetAndConfiguration>, keys: seq<Key>, j: nat)
    requires keys == Deduplicate(DepKeys(deps)) && j < |keys|
    ensures exists i :: 0 <= i < |deps| && ToKey(deps[i]) == keys[j]
  {
    var ks := DepKeys(deps);
    assert keys[j] in ks;
    var i :| 0 <= i < |ks| && ks[i] == keys[j];
    assert ToKey(deps[i]) == keys[j];
  }

  /** Every dependency's key is requested. */
  lemma DependencyRequested(deps: seq<TargetAndConfiguration>, keys: seq<Key>, i: nat)
    requires keys == Deduplicate(DepKeys(deps)) && i < |deps|
    ensures exists j :: 0 <= j < |keys| && keys[j] == ToKey(deps[i])
  {
    var ks := DepKeys(deps);
    assert ks[i] in keys;
  }

  lemma {:induction false} ScanDirect(env: Environment, deps: seq<TargetAndConfiguration>, keys: seq<Key>)
    requires keys == Deduplicate(DepKeys(deps))
    ensures var s := ScanKeys(env, keys, |keys|);
            && (s.direct.Some? <==> exists i :: 0 <= i < |deps| && DirectFailure(env, ToKey(deps[i])))
            && (s.direct.Some? ==>
                  exists i :: 0 <= i < |deps| && DirectFailure(env, ToKey(deps[i]))
                              && s.direct.value == (deps[i].target.targetLabel, env.Lookup(ToKey(deps[i])).error))
  {
    var s := ScanKeys(env, keys, |keys|);
    if s.direct.Some? {
      var j :| 0 <= j < |keys| && DirectFailure(env, keys[j])
               && s.direct.value == (keys[j].targetLabel, env.Lookup(keys[j]).error);
      KeyFromDependency(deps, keys, j);
      var i :| 0 <= i < |deps| && ToKey(deps[i]) == keys[j];
      assert DirectFailure(env, ToKey(deps[i]));
    } else {
      forall i | 0 <= i < |deps|
        ensures !DirectFailure(env, ToKey(deps[i]))
      {
        DependencyRequested(deps, keys, i);
      }
    }
  }

  lemma {:induction false} ScanTransitive(env: Environment, deps: seq<TargetAndConfiguration>, keys: seq<Key>)
    requires keys == Deduplicate(DepKeys(deps))
    ensures var s := ScanKeys(env, keys, |keys|);
            && (s.transitive.Some? <==> exists i :: 0 <= i < |deps| && TransitiveFailure(env, ToKey(deps[i])))
            && (s.transitive.Some? ==>
                  exists i :: 0 <= i < |deps| && TransitiveFailure(env, ToKey(deps[i]))
                              && s.transitive.value == (ToKey(deps[i]), env.Lookup(ToKey(deps[i])).error))
  {
    var s := ScanKeys(env, keys, |keys|);
    if s.transitive.Some? {
      var j :| 0 <= j < |keys| && TransitiveFailure(env, keys[j])
               && s.transitive.value == (keys[j], env.Lookup(keys[j]).error);
      KeyFromDependency(deps, keys, j);
      var i :| 0 <= i < |deps| && ToKey(deps[i]) == keys[j];
      assert TransitiveFailure(env, ToKey(deps[i]));
    } else {
      forall i | 0 <= i < |deps|
        ensures !TransitiveFailure(env, ToKey(deps[i]))
      {
        DependencyRequested(deps, keys, i);
      }
    }
  }

  lemma {:induction false} ScanOk(env: Environment, deps: seq<TargetAndConfiguration>, keys: seq<Key>)
    requires keys == Deduplicate(DepKeys(deps))
    ensures ScanKeys(env, keys, |keys|).ok <==>
              !env.valuesMissing && forall i :: 0 <= i < |deps| ==> Available(env, ToKey(deps[i]))
  {
    var s := ScanKeys(env, keys, |keys|);
    if s.ok {
      forall i | 0 <= i < |deps|
        ensures Available(env, ToKey(deps[i]))
      {
        DependencyRequested(deps, keys, i);
      }
    } else if !env.valuesMissing {
      var j :| 0 <= j < |keys| && !Available(env, keys[j]);
      KeyFromDependency(deps, keys, j);
      var i :| 0 <= i < |deps| && ToKey(deps[i]) == keys[j];
      assert !Available(env, ToKey(deps[i]));
    }
  }

  lemma {:induction false} ScanValues(env: Environment, deps: seq<TargetAndConfiguration>, keys: seq<Key>)
    requires keys == Deduplicate(DepKeys(deps))
    ensures var s := ScanKeys(env, keys, |keys|);
            && (forall i :: 0 <= i < |deps| && Available(env, ToKey(deps[i])) ==>
                  ToKey(deps[i]) in s.values && s.values[ToKey(deps[i])] == env.Lookup(ToKey(deps[i])).value)
            && forall k :: k in s.values ==> exists i :: 0 <= i < |deps| && ToKey(deps[i]) == k
  {
    var s := ScanKeys(env, keys, |keys|);
    ScanKeysValues(env, keys, |keys|);
    forall i | 0 <= i < |deps| && Available(env, ToKey(deps[i]))
      ensures ToKey(deps[i]) in s.values
    {
      DependencyRequested(deps, keys, i);
    }
    forall k | k in s.values
      ensures exists i :: 0 <= i < |deps| && ToKey(deps[i]) == k
    {
      var j :| 0 <= j < |keys| && keys[j] == k && Available(env, k);
      KeyFromDependency(deps, keys, j);
    }
  }

  /** The configuration the target is analysed in: input files and package
      groups take the null configuration, everything else the key's. */
  function NormalizeConfiguration(target: Target, configuration: Configuration): (r: Configuration)
    ensures (target.InputFile? || target.PackageGroup?) ==> r.None?
    ensures !(target.InputFile? || target.PackageGroup?) ==> r == configuration
  {
    if target.InputFile? || target.PackageGroup? then None else configuration
  }

  /** The configuration labels of one attribute's `select()` keys, skipping
      the reserved ones. */
  function AttributeConfigLabels(a: Attribute, keys: seq<Label>, configuration: Configuration,
                                 isReservedLabel: Label -> bool): (r: Entries<LabelAndConfiguration>)
    ensures forall j :: 0 <= j < |r| ==> r[j].0 == a && r[j].1.configuration == configuration
    ensures forall j :: 0 <= j < |r| ==> r[j].1.targetLabel in keys && !isReservedLabel(r[j].1.targetLabel)
    ensures forall l :: l in keys && !isReservedLabel(l) ==> (a, LabelAndConfiguration(l, configuration)) in r
  {
    if keys == [] then []
    else
      var rest := AttributeConfigLabels(a, keys[1..], configuration, isReservedLabel);
      if isReservedLabel(keys[0]) then rest
      else [(a, LabelAndConfiguration(keys[0], configuration))] + rest
  }

  /** The configuration labels of all attributes, attribute by attribute. */
  function ConfigLabels(attributes: seq<Attribute>, configuration: Configuration,
                        isReservedLabel: Label -> bool): (r: Entries<LabelAndConfiguration>)
    ensures forall j :: 0 <= j < |r| ==>
              r[j].0 in attributes && r[j].1.targetLabel in r[j].0.configurabilityKeys
              && !isReservedLabel(r[j].1.targetLabel) && r[j].1.configuration == configuration
    ensures forall a, l :: a in attributes && l in a.configurabilityKeys && !isReservedLabel(l) ==>
              (a, LabelAndConfiguration(l, configuration)) in r
  {
    if attributes == [] then []
    else
      AttributeConfigLabels(attributes[0], attributes[0].configurabilityKeys, configuration, isReservedLabel)
      + ConfigLabels(attributes[1..], configuration, isReservedLabel)
  }

  /** Attributes whose `select()` keys are all reserved need no configuration target. */
  lemma OnlyReservedKeys(attributes: seq<Attribute>, configuration: Configuration, isReservedLabel: Label -> bool)
    ensures (forall a, l :: a in attributes && l in a.configurabilityKeys ==> isReservedLabel(l))
            <==> ConfigLabels(attributes, configuration, isReservedLabel) == []
  {
    var r := ConfigLabels(attributes, configuration, isReservedLabel);
    if r != [] {
      assert r[0].0 in attributes && r[0].1.targetLabel in r[0].0.configurabilityKeys;
    }
  }

  /** The configuration-condition providers of the resolved condition targets,
      in order; the first target without one is an error naming it and the
      requesting rule. */
  function ProvidersOf(names: seq<TargetAndConfiguration>, values: map<Key, ConfiguredTargetValue>,
                       requester: Label): (r: Result<seq<ConfigMatchingProvider>, ComputeError>)
    requires forall i :: 0 <= i < |names| ==> ToKey(names[i]) in values
    ensures r.Success? <==>
              forall i :: 0 <= i < |names| ==> values[ToKey(names[i])].configuredTarget.configMatching.Some?
    ensures r.Success? ==>
              |r.value| == |names| &&
              forall i :: 0 <= i < |names| ==>
                r.value[i] == values[ToKey(names[i])].configuredTarget.configMatching.value
    ensures r.Failure? ==>
              exists i :: 0 <= i < |names|
                          && r.error == InvalidConfigurationKey(names[i].target, requester)
                          && values[ToKey(names[i])].configuredTarget.configMatching.None?
                          && forall j :: 0 <= j < i ==> values[ToKey(names[j])].configuredTarget.configMatching.Some?
  {
    if names == [] then Success([])
    else
      match values[ToKey(names[0])].configuredTarget.configMatching
      case None => Failure(InvalidConfigurationKey(names[0].target, requester))
      case Some(p) =>
        var rest :- ProvidersOf(names[1..], values, requester);
        Success([p] + rest)
  }

  /** The providers that key the rule's configurable attributes, once each in
      first-occurrence order. Targets other than rules, and rules without a
      non-reserved `select()` key, have none. */
  function GetConfigConditions(target: Target, env: Environment, collab: Collaborators,
                               ctg: TargetAndConfiguration): (r: Outcome<(seq<ConfigMatchingProvider>, Environment)>)
    ensures !target.Rule? ==> r == Ok(([], env))
    ensures target.Rule?
            && (forall a, l :: a in target.attributes && l in a.configurabilityKeys ==> collab.isReservedLabel(l))
            ==> r == Ok(([], env))
    ensures r.Ok? ==> NoDuplicates(r.value.0) && r.value.1.entries == env.entries
                      && r.value.1.packages == env.packages
    ensures r.Fail? ==>
              || (r.error.MissingEdge? && r.error.from == target.targetLabel)
              || r.error.TransitiveError?
              || (r.error.InvalidConfigurationKey? && r.error.requester == target.targetLabel)
  {
    if !target.Rule? then Ok(([], env))
    else
      OnlyReservedKeys(target.attributes, ctg.configuration, collab.isReservedLabel);
      var labels := ConfigLabels(target.attributes, ctg.configuration, collab.isReservedLabel);
      if labels == [] then Ok(([], env))
      else
        var (names, missing) := collab.resolveRuleLabels(ctg, labels);
        ProvidersOfConditions(env, names, missing, target)
  }

  /** The providers of the resolved condition targets `names` of `target`,
      once each; `missing` says whether resolving them requested values. */
  function ProvidersOfConditions(env: Environment, names: seq<TargetAndConfiguration>, missing: bool,
                                 target: Target): (r: Outcome<(seq<ConfigMatchingProvider>, Environment)>)
    ensures r.Ok? ==> NoDuplicates(r.value.0) && r.value.1.entries == env.entries
                      && r.value.1.packages == env.packages
    ensures r.Fail? ==>
              || (r.error.MissingEdge? && r.error.from == target.targetLabel)
              || r.error.TransitiveError?
              || (r.error.InvalidConfigurationKey? && r.error.requester == target.targetLabel)
  {
    var env' := env.Requested(missing);
    var values :- ResolveDependencies(env', names, target);
    match ProvidersOf(names, values, target.targetLabel)
    case Failure(e) => Fail(e)
    case Success(providers) => Ok((Deduplicate(providers), env'))
  }

  /** The condition provider a resolved condition target exposes, when its
      value is present. */
  function ConditionProvider(env: Environment, tc: TargetAndConfiguration): Option<ConfigMatchingProvider> {
    if Available(env, ToKey(tc)) then env.Lookup(ToKey(tc)).value.configuredTarget.configMatching else None
  }

  /** The providers of condition targets that all expose one, in order. */
  function ConditionProviders(env: Environment, names: seq<TargetAndConfiguration>): (r: seq<ConfigMatchingProvider>)
    requires forall i :: 0 <= i < |names| ==> ConditionProvider(env, names[i]).Some?
    ensures |r| == |names|
  {
    seq(|names|, i requires 0 <= i < |names| => ConditionProvider(env, names[i]).value)
  }

  /** The condition targets the resolver makes of a rule's non-reserved
      `select()` keys, and whether it had to request values for them. */
  function ResolvedConditions(target: Target, collab: Collaborators, ctg: TargetAndConfiguration)
    : (seq<TargetAndConfiguration>, bool)
    requires target.Rule?
  {
    collab.resolveRuleLabels(ctg, ConfigLabels(target.attributes, ctg.configuration, collab.isReservedLabel))
  }

  /** On success the conditions are the providers of every resolved condition
      target, once each in first-occurrence order. */
  lemma ConditionsAreResolvedProviders(target: Target, env: Environment, collab: Collaborators,
                                       ctg: TargetAndConfiguration)
    requires target.Rule? && ConfigLabels(target.attributes, ctg.configuration, collab.isReservedLabel) != []
    requires GetConfigConditions(target, env, collab, ctg).Ok?
    ensures var names := ResolvedConditions(target, collab, ctg).0;
            && (forall i :: 0 <= i < |names| ==> ConditionProvider(env, names[i]).Some?)
            && GetConfigConditions(target, env, collab, ctg).value.0 == Deduplicate(ConditionProviders(env, names))
  {
    var (names, missing) := ResolvedConditions(target, collab, ctg);
    ProvidersOfConditionsOk(env, names, missing, target);
  }

  lemma ProvidersOfConditionsOk(env: Environment, names: seq<TargetAndConfiguration>, missing: bool, target: Target)
    requires ProvidersOfConditions(env, names, missing, target).Ok?
    ensures (forall i :: 0 <= i < |names| ==> ConditionProvider(env, names[i]).Some?)
            && ProvidersOfConditions(env, names, missing, target).value.0 == Deduplicate(ConditionProviders(env, names))
  {
    var env' := env.Requested(missing);
    var values := ResolveDependencies(env', names, target).value;
    var providers := ProvidersOf(names, values, target.targetLabel).value;
    forall i | 0 <= i < |names|
      ensures ConditionProvider(env, names[i]).Some? && providers[i] == ConditionProvider(env, names[i]).value
    {
      ResolvedProvider(env, missing, names, target, i);
    }
    assert providers == ConditionProviders(env, names);
  }

  /** The first condition target without a provider is reported by name. */
  lemma InvalidConditionNamesResolvedTarget(target: Target, env: Environment, collab: Collaborators,
                                            ctg: TargetAndConfiguration, i: nat)
    requires target.Rule?
    ensures var r := GetConfigConditions(target, env, collab, ctg);
            var names := ResolvedConditions(target, collab, ctg).0;
            r.Fail? && r.error.InvalidConfigurationKey? ==>
              exists i :: 0 <= i < |names| && r.error.badTarget == names[i].target
                          && Available(env, ToKey(names[i])) && ConditionProvider(env, names[i]).None?
                          && forall j :: 0 <= j < i ==> ConditionProvider(env, names[j]).Some?
    ensures var (names, missing) := ResolvedConditions(target, collab, ctg);
            && ConfigLabels(target.attributes, ctg.configuration, collab.isReservedLabel) != []
            && ConditionValuesPresent(env, names, missing)
            && i < |names| && ConditionProvider(env, names[i]).None?
            && (forall j :: 0 <= j < i ==> ConditionProvider(env, names[j]).Some?)
            ==> GetConfigConditions(target, env, collab, ctg)
                == Fail(InvalidConfigurationKey(names[i].target, target.targetLabel))
  {
    var labels := ConfigLabels(target.attributes, ctg.configuration, collab.isReservedLabel);
    if labels != [] {
      var (names, missing) := ResolvedConditions(target, collab, ctg);
      ProvidersOfConditionsInvalid(env, names, missing, target);
      if ConditionValuesPresent(env, names, missing) && i < |names| && ConditionProvider(env, names[i]).None?
         && (forall j :: 0 <= j < i ==> ConditionProvider(env, names[j]).Some?) {
        ProvidersOfConditionsFirstMissing(env, names, missing, target, i);
      }
    }
  }

  lemma ProvidersOfConditionsInvalid(env: Environment, names: seq<TargetAndConfiguration>, missing: bool, target: Target)
    ensures var r := ProvidersOfConditions(env, names, missing, target);
            r.Fail? && r.error.InvalidConfigurationKey? ==>
              exists i :: 0 <= i < |names| && r.error.badTarget == names[i].target
                          && Available(env, ToKey(names[i])) && ConditionProvider(env, names[i]).None?
                          && forall j :: 0 <= j < i ==> ConditionProvider(env, names[j]).Some?
  {
    var r := ProvidersOfConditions(env, names, missing, target);
    if r.Fail? && r.error.InvalidConfigurationKey? {
      var resolved := ResolveDependencies(env.Requested(missing), names, target);
      assert resolved.Ok? && r.error == ProvidersOf(names, resolved.value, target.targetLabel).error;
      FirstMissingProvider(env, missing, names, resolved.value, target.targetLabel);
    }
  }

  lemma FirstMissingProvider(env: Environment, missing: bool, names: seq<TargetAndConfiguration>,
                             values: map<Key, ConfiguredTargetValue>, requester: Label)
    requires forall j :: 0 <= j < |names| ==>
               Available(env.Requested(missing), ToKey(names[j])) && ToKey(names[j]) in values
               && values[ToKey(names[j])] == env.Requested(missing).Lookup(ToKey(names[j])).value
    requires ProvidersOf(names, values, requester).Failure?
    ensures exists i :: 0 <= i < |names|
                        && ProvidersOf(names, values, requester).error == InvalidConfigurationKey(names[i].target, requester)
                        && Available(env, ToKey(names[i])) && ConditionProvider(env, names[i]).None?
                        && forall j :: 0 <= j < i ==> ConditionProvider(env, names[j]).Some?
  {
    var i :| 0 <= i < |names|
             && ProvidersOf(names, values, requester).error == InvalidConfigurationKey(names[i].target, requester)
             && values[ToKey(names[i])].configuredTarget.configMatching.None?
             && forall j :: 0 <= j < i ==> values[ToKey(names[j])].configuredTarget.configMatching.Some?;
    forall j | 0 <= j <= i
      ensures Available(env, ToKey(names[j]))
      ensures ConditionProvider(env, names[j]) == values[ToKey(names[j])].configuredTarget.configMatching
    {
      RequestedKeepsLookup(env, missing, ToKey(names[j]));
    }
  }

  /** Condition resolution waits exactly when no condition target failed and
      some value is still missing. */
  lemma ConditionsIncompleteWhenValuesMissing(target: Target, env: Environment, collab: Collaborators,
                                              ctg: TargetAndConfiguration)
    requires target.Rule? && ConfigLabels(target.attributes, ctg.configuration, collab.isReservedLabel) != []
    ensures var (names, missing) := ResolvedConditions(target, collab, ctg);
            GetConfigConditions(target, env, collab, ctg).Incomplete? <==>
              (forall i :: 0 <= i < |names| ==> !env.Lookup(ToKey(names[i])).Failed?)
              && (env.valuesMissing || missing || exists i :: 0 <= i < |names| && !Available(env, ToKey(names[i])))
  {
    var (names, missing) := ResolvedConditions(target, collab, ctg);
    ProvidersOfConditionsIncomplete(env, names, missing, target);
  }

  lemma ProvidersOfConditionsIncomplete(env: Environment, names: seq<TargetAndConfiguration>, missing: bool,
                                        target: Target)
    ensures ProvidersOfConditions(env, names, missing, target).Incomplete? <==>
              (forall i :: 0 <= i < |names| ==> !env.Lookup(ToKey(names[i])).Failed?)
              && (env.valuesMissing || missing || exists i :: 0 <= i < |names| && !Available(env, ToKey(names[i])))
  {
    var env' := env.Requested(missing);
    var resolved := ResolveDependencies(env', names, target);
    assert ProvidersOfConditions(env, names, missing, target).Incomplete? <==> resolved.Incomplete?;
    forall i | 0 <= i < |names|
      ensures env'.Lookup(ToKey(names[i])) == env.Lookup(ToKey(names[i]))
    {
      RequestedKeepsLookup(env, missing, ToKey(names[i]));
    }
    assert (forall i :: 0 <= i < |names| ==> !env'.Lookup(ToKey(names[i])).Failed?)
           <==> (forall i :: 0 <= i < |names| ==> !env.Lookup(ToKey(names[i])).Failed?);
    assert (exists i :: 0 <= i < |names| && !Available(env', ToKey(names[i])))
           <==> (exists i :: 0 <= i < |names| && !Available(env, ToKey(names[i])));
  }

  /** A resolved condition target's value is the one the environment holds. */
  lemma ResolvedProvider(env: Environment, missing: bool, names: seq<TargetAndConfiguration>, target: Target, j: nat)
    requires ResolveDependencies(env.Requested(missing), names, target).Ok? && j < |names|
    ensures Available(env, ToKey(names[j]))
    ensures ConditionProvider(env, names[j])
            == ResolveDependencies(env.Requested(missing), names, target).value[ToKey(names[j])].configuredTarget.configMatching
  {
    RequestedKeepsLookup(env, missing, ToKey(names[j]));
  }

  /** Every condition target's value is present and nothing was reported missing. */
  predicate ConditionValuesPresent(env: Environment, names: seq<TargetAndConfiguration>, missing: bool) {
    && !env.valuesMissing && !missing
    && forall i :: 0 <= i < |names| ==> Available(env, ToKey(names[i]))
  }

  /** Every condition target exposes a condition provider. */
  predicate AllProvided(env: Environment, names: seq<TargetAndConfiguration>) {
    forall i :: 0 <= i < |names| ==> ConditionProvider(env, names[i]).Some?
  }

  /** The condition targets resolve exactly when all their values are present. */
  lemma ConditionTargetsResolve(env: Environment, names: seq<TargetAndConfiguration>, missing: bool, target: Target)
    ensures ResolveDependencies(env.Requested(missing), names, target).Ok? <==> ConditionValuesPresent(env, names, missing)
  {
    var env' := env.Requested(missing);
    forall i | 0 <= i < |names|
      ensures env'.Lookup(ToKey(names[i])) == env.Lookup(ToKey(names[i]))
    {
      RequestedKeepsLookup(env, missing, ToKey(names[i]));
    }
    var resolved := ResolveDependencies(env', names, target);
    if ConditionValuesPresent(env, names, missing) {
      assert forall i :: 0 <= i < |names| ==> !DirectFailure(env', ToKey(names[i])) && !TransitiveFailure(env', ToKey(names[i]));
    }
  }

  /** With every value present and every provider found, the conditions are
      the providers, once each. */
  lemma ProvidersOfConditionsSucceed(env: Environment, names: seq<TargetAndConfiguration>, missing: bool, target: Target)
    requires ConditionValuesPresent(env, names, missing) && AllProvided(env, names)
    ensures ProvidersOfConditions(env, names, missing, target)
            == Ok((Deduplicate(ConditionProviders(env, names)), env.Requested(missing)))
  {
    ConditionTargetsResolve(env, names, missing, target);
    var resolved := ResolveDependencies(env.Requested(missing), names, target);
    var values := resolved.value;
    forall i | 0 <= i < |names|
      ensures values[ToKey(names[i])].configuredTarget.configMatching == ConditionProvider(env, names[i])
    {
      ResolvedProvider(env, missing, names, target, i);
    }
    var providers := ProvidersOf(names, values, target.targetLabel);
    assert providers.Success?;
    assert providers.value == ConditionProviders(env, names);
  }

  /** With every value present, the first target without a provider is
      reported as an invalid configuration key of the requesting rule. */
  lemma ProvidersOfConditionsFirstMissing(env: Environment, names: seq<TargetAndConfiguration>, missing: bool,
                                          target: Target, i: nat)
    requires ConditionValuesPresent(env, names, missing)
    requires i < |names| && ConditionProvider(env, names[i]).None?
    requires forall j :: 0 <= j < i ==> ConditionProvider(env, names[j]).Some?
    ensures ProvidersOfConditions(env, names, missing, target)
            == Fail(InvalidConfigurationKey(names[i].target, target.targetLabel))
  {
    ConditionTargetsResolve(env, names, missing, target);
    var resolved := ResolveDependencies(env.Requested(missing), names, target);
    var values := resolved.value;
    forall j | 0 <= j < |names|
      ensures values[ToKey(names[j])].configuredTarget.configMatching == ConditionProvider(env, names[j])
    {
      ResolvedProvider(env, missing, names, target, j);
    }
    var providers := ProvidersOf(names, values, target.targetLabel);
    assert providers.Failure?;
    var k :| 0 <= k < |names| && providers.error == InvalidConfigurationKey(names[k].target, target.targetLabel)
             && values[ToKey(names[k])].configuredTarget.configMatching.None?
             && forall j :: 0 <= j < k ==> values[ToKey(names[j])].configuredTarget.configMatching.Some?;
    assert k == i;
  }

  /** Requesting more values changes no condition target's failure. */
  lemma RequestedKeepsFailures(env: Environment, names: seq<TargetAndConfiguration>, missing: bool)
    ensures forall i :: 0 <= i < |names| ==>
              && DirectFailure(env.Requested(missing), ToKey(names[i])) == DirectFailure(env, ToKey(names[i]))
              && TransitiveFailure(env.Requested(missing), ToKey(names[i])) == TransitiveFailure(env, ToKey(names[i]))
  {
    forall i | 0 <= i < |names|
      ensures DirectFailure(env.Requested(missing), ToKey(names[i])) == DirectFailure(env, ToKey(names[i]))
      ensures TransitiveFailure(env.Requested(missing), ToKey(names[i])) == TransitiveFailure(env, ToKey(names[i]))
    {
      RequestedKeepsLookup(env, missing, ToKey(names[i]));
    }
  }

  /** A directly failing condition target fails the conditions with a missing
      edge from the rule, and nothing else does. */
  lemma ProvidersOfConditionsMissingEdge(env: Environment, names: seq<TargetAndConfiguration>, missing: bool,
                                         target: Target)
    ensures var r := ProvidersOfConditions(env, names, missing, target);
            (r.Fail? && r.error.MissingEdge?) <==> exists i :: 0 <= i < |names| && DirectFailure(env, ToKey(names[i]))
  {
    RequestedKeepsFailures(env, names, missing);
    var resolved := ResolveDependencies(env.Requested(missing), names, target);
  }

  /** Without a direct failure, a failing condition target's error is
      rethrown, and nothing else is. */
  lemma ProvidersOfConditionsTransitive(env: Environment, names: seq<TargetAndConfiguration>, missing: bool,
                                        target: Target)
    ensures var r := ProvidersOfConditions(env, names, missing, target);
            (r.Fail? && r.error.TransitiveError?) <==>
              (forall i :: 0 <= i < |names| ==> !DirectFailure(env, ToKey(names[i])))
              && exists i :: 0 <= i < |names| && TransitiveFailure(env, ToKey(names[i]))
  {
    RequestedKeepsFailures(env, names, missing);
    var resolved := ResolveDependencies(env.Requested(missing), names, target);
  }

  /** A rule's conditions succeed exactly when every condition target's value
      is present and has a provider; they are then those providers, once each
      in first-occurrence order. */
  lemma ConditionsSucceedIffProvided(target: Target, env: Environment, collab: Collaborators,
                                     ctg: TargetAndConfiguration)
    requires target.Rule? && ConfigLabels(target.attributes, ctg.configuration, collab.isReservedLabel) != []
    ensures var (names, missing) := ResolvedConditions(target, collab, ctg);
            GetConfigConditions(target, env, collab, ctg).Ok?
            <==> ConditionValuesPresent(env, names, missing) && AllProvided(env, names)
    ensures var (names, missing) := ResolvedConditions(target, collab, ctg);
            ConditionValuesPresent(env, names, missing) && AllProvided(env, names) ==>
              GetConfigConditions(target, env, collab, ctg)
              == Ok((Deduplicate(ConditionProviders(env, names)), env.Requested(missing)))
  {
    var (names, missing) := ResolvedConditions(target, collab, ctg);
    ConditionTargetsResolve(env, names, missing, target);
    if ConditionValuesPresent(env, names, missing) && AllProvided(env, names) {
      ProvidersOfConditionsSucceed(env, names, missing, target);
    }
    if GetConfigConditions(target, env, collab, ctg).Ok? {
      ProvidersOfConditionsOk(env, names, missing, target);
    }
  }

  /** A condition target that fails makes the conditions fail: directly with a
      missing edge from the rule, otherwise by rethrowing its error. */
  lemma ConditionDependencyErrors(target: Target, env: Environment, collab: Collaborators,
                                  ctg: TargetAndConfiguration)
    requires target.Rule? && ConfigLabels(target.attributes, ctg.configuration, collab.isReservedLabel) != []
    ensures var names := ResolvedConditions(target, collab, ctg).0;
            var r := GetConfigConditions(target, env, collab, ctg);
            && ((r.Fail? && r.error.MissingEdge?) <==> exists i :: 0 <= i < |names| && DirectFailure(env, ToKey(names[i])))
            && ((r.Fail? && r.error.TransitiveError?) <==>
                  (forall i :: 0 <= i < |names| ==> !DirectFailure(env, ToKey(names[i])))
                  && exists i :: 0 <= i < |names| && TransitiveFailure(env, ToKey(names[i])))
  {
    var (names, missing) := ResolvedConditions(target, collab, ctg);
    ProvidersOfConditionsMissingEdge(env, names, missing, target);
    ProvidersOfConditionsTransitive(env, names, missing, target);
  }

  lemma RequestedKeepsLookup(env: Environment, missing: bool, k: Key)
    ensures env.Requested(missing).Lookup(k) == env.Lookup(k)
  {
  }

  /** The values of the entries whose attribute is `a`, in order. */
  function ValuesFor<V>(entries: Entries<V>, a: Attribute): seq<V> {
    if entries == [] then []
    else
      var rest := ValuesFor(entries[..|entries| - 1], a);
      if entries[|entries| - 1].0 == a then rest + [entries[|entries| - 1].1] else rest
  }

  /** Puts the entries one after another into a list multimap. */
  function Regroup<V>(entries: Entries<V>): (m: map<Attribute, seq<V>>)
    ensures forall a :: a in m <==> exists j :: 0 <= j < |entries| && entries[j].0 == a
  {
    if entries == [] then map[]
    else
      var m := Regroup(entries[..|entries| - 1]);
      var (a, v) := entries[|entries| - 1];
      assert forall j :: 0 <= j < |entries| - 1 ==> entries[..|entries| - 1][j] == entries[j];
      m[a := (if a in m then m[a] else []) + [v]]
  }

  /** Regrouping keeps, for every attribute, its values in entry order. */
  lemma {:induction false} RegroupPerAttribute<V>(entries: Entries<V>, a: Attribute)
    ensures a in Regroup(entries) ==> Regroup(entries)[a] == ValuesFor(entries, a)
    ensures a !in Regroup(entries) ==> ValuesFor(entries, a) == []
  {
    if entries != [] {
      RegroupPerAttribute(entries[..|entries| - 1], a);
    }
  }

  /** The dependencies as configured targets, entry by entry. */
  function DepValueEntries(names: Entries<TargetAndConfiguration>, values: map<Key, ConfiguredTargetValue>)
    : (r: Entries<ConfiguredTarget>)
    requires forall i :: 0 <= i < |names| ==> ToKey(names[i].1) in values
    ensures |r| == |names|
    ensures forall i :: 0 <= i < |names| ==>
              r[i] == (names[i].0, values[ToKey(names[i].1)].configuredTarget)
  {
    seq(|names|, i requires 0 <= i < |names| => (names[i].0, values[ToKey(names[i].1)].configuredTarget))
  }

  function TargetsOf(names: Entries<TargetAndConfiguration>): (r: seq<TargetAndConfiguration>)
    ensures |r| == |names| && forall i :: 0 <= i < |names| ==> r[i] == names[i].1
  {
    seq(|names|, i requires 0 <= i < |names| => names[i].1)
  }

  predicate HasErrors(events: seq<Event>) {
    exists i :: 0 <= i < |events| && events[i].kind == ErrorEvent
  }

  /** Builds the configured target. Error events fail the node; a value
      requested but missing, before or during construction, makes it
      incomplete. */
  function CreateConfiguredTarget(env: Environment, collab: Collaborators, target: Target,
                                  configuration: Configuration,
                                  depValueMap: map<Attribute, seq<ConfiguredTarget>>,
                                  configConditions: seq<ConfigMatchingProvider>)
    : (r: Outcome<ConfiguredTargetValue>)
    ensures var c := collab.createAndInitialize(target, configuration, depValueMap, configConditions);
            && (env.valuesMissing || collab.analysisEnvironmentMissing ==> r.Incomplete?)
            && (!env.valuesMissing && !collab.analysisEnvironmentMissing ==>
                  && (r.Fail? <==> HasErrors(c.events))
                  && (r.Fail? ==> r.error == AnalysisFailed(target.targetLabel))
                  && (r.Incomplete? <==> !HasErrors(c.events) && c.valuesMissing)
                  && (r.Ok? ==> r.value == ConfiguredTargetValue(c.configuredTarget, c.actions)))
  {
    if env.valuesMissing || collab.analysisEnvironmentMissing then Incomplete
    else
      var c := collab.createAndInitialize(target, configuration, depValueMap, configConditions);
      if HasErrors(c.events) then Fail(AnalysisFailed(target.targetLabel))
      else if c.valuesMissing then Incomplete
      else Ok(ConfiguredTargetValue(c.configuredTarget, c.actions))
  }

  /** Steps two to five, once the configuration conditions are known: the
      resolver's dependency entries, their resolution, their regrouping per
      attribute, and rule construction. */
  function AnalyseWithConditions(env: Environment, collab: Collaborators, target: Target,
                                 configuration: Configuration, conditions: seq<ConfigMatchingProvider>)
    : (r: Outcome<ConfiguredTargetValue>)
    ensures collab.dependentNodeMap(TargetAndConfiguration(target, configuration), conditions).Failure? ==>
              r == Fail(EvalError(collab.dependentNodeMap(TargetAndConfiguration(target, configuration), conditions).error))
    ensures r.Fail? ==> !r.error.NoSuchTargetError? && !r.error.InvalidConfigurationKey?
    ensures collab.dependentNodeMap(TargetAndConfiguration(target, configuration), conditions).Success? ==>
              var (names, missing) := collab.dependentNodeMap(TargetAndConfiguration(target, configuration), conditions).value;
              var resolved := ResolveDependencies(env.Requested(missing), TargetsOf(names), target);
              && (resolved.Fail? ==> r == Fail(resolved.error))
              && (resolved.Incomplete? ==> r.Incomplete?)
              && (resolved.Ok? ==>
                    r == CreateConfiguredTarget(env.Requested(missing), collab, target, configuration,
                                                Regroup(DepValueEntries(names, resolved.value)), conditions))
  {
    var ctg := TargetAndConfiguration(target, configuration);
    match collab.dependentNodeMap(ctg, conditions)
    case Failure(message) => Fail(EvalError(message))
    case Success((names, missing)) =>
      var env2 := env.Requested(missing);
      var depValues :- ResolveDependencies(env2, TargetsOf(names), target);
      var depValueMap := Regroup(DepValueEntries(names, depValues));
      CreateConfiguredTarget(env2, collab, target, configuration, depValueMap, conditions)
  }

  /** Computes the configured target of `key`. */
  function Compute(key: Key, env: Environment, collab: Collaborators): (r: Outcome<ConfiguredTargetValue>)
    ensures key.targetLabel.packageName !in env.packages ==> r.Incomplete?
    ensures key.targetLabel.packageName in env.packages
            && key.targetLabel.name !in env.packages[key.targetLabel.packageName].targets ==>
              r == Fail(NoSuchTargetError(key.targetLabel))
    ensures (key.targetLabel.packageName in env.packages
             && key.targetLabel.name in env.packages[key.targetLabel.packageName].targets
             && !collab.resolverAvailable) ==> r.Incomplete?
    ensures r.Fail? && r.error.NoSuchTargetError? ==>
              key.targetLabel.packageName in env.packages
              && key.targetLabel.name !in env.packages[key.targetLabel.packageName].targets
    ensures Found(key, env) && collab.resolverAvailable ==>
              var target := TargetOf(key, env);
              var configuration := NormalizeConfiguration(target, key.configuration);
              var conditions := GetConfigConditions(target, env, collab, TargetAndConfiguration(target, configuration));
              && (conditions.Incomplete? ==> r.Incomplete?)
              && (conditions.Fail? ==> r == Fail(conditions.error))
              && (conditions.Ok? ==>
                    r == AnalyseWithConditions(conditions.value.1, collab, target, configuration, conditions.value.0))
    ensures r.Ok? ==>
              Found(key, env) && collab.resolverAvailable
              && GetConfigConditions(TargetOf(key, env), env, collab,
                                     TargetAndConfiguration(TargetOf(key, env),
                                                            NormalizeConfiguration(TargetOf(key, env), key.configuration))).Ok?
  {
    if key.targetLabel.packageName !in env.packages then Incomplete
    else
      var pkg := env.packages[key.targetLabel.packageName];
      if key.targetLabel.name !in pkg.targets then Fail(NoSuchTargetError(key.targetLabel))
      else
        var target := pkg.targets[key.targetLabel.name];
        AnalyseTarget(env, collab, target, NormalizeConfiguration(target, key.configuration))
  }

  /** Analyses a loaded target in the given configuration: the configuration
      conditions first, then the dependencies and rule construction. */
  function AnalyseTarget(env: Environment, collab: Collaborators, target: Target,
                         configuration: Configuration): (r: Outcome<ConfiguredTargetValue>)
    ensures !collab.resolverAvailable ==> r.Incomplete?
    ensures collab.resolverAvailable ==>
              var conditions := GetConfigConditions(target, env, collab, TargetAndConfiguration(target, configuration));
              && (conditions.Incomplete? ==> r.Incomplete?)
              && (conditions.Fail? ==> r == Fail(conditions.error))
              && (conditions.Ok? ==>
                    r == AnalyseWithConditions(conditions.value.1, collab, target, configuration, conditions.value.0))
    ensures r.Ok? ==>
              collab.resolverAvailable
              && GetConfigConditions(target, env, collab, TargetAndConfiguration(target, configuration)).Ok?
  {
    if !collab.resolverAvailable then Incomplete
    else
      var (conditions, env1) :- GetConfigConditions(target, env, collab,
                                                    TargetAndConfiguration(target, configuration));
      AnalyseWithConditions(env1, collab, target, configuration, conditions)
  }

  /** The target `key` names, when its package is loaded and has it. */
  predicate Found(key: Key, env: Environment) {
    key.targetLabel.packageName in env.packages
    && key.targetLabel.name in env.packages[key.targetLabel.packageName].targets
  }

  function TargetOf(key: Key, env: Environment): Target
    requires Found(key, env)
  {
    env.packages[key.targetLabel.packageName].targets[key.targetLabel.name]
  }

  /** A found input file or package group is analysed in the null
      configuration; every other target in the key's own configuration. */
  lemma ComputeAnalysesInNormalizedConfiguration(key: Key, env: Environment, collab: Collaborators)
    requires Found(key, env)
    ensures var target := TargetOf(key, env);
            (target.InputFile? || target.PackageGroup?) ==> Compute(key, env, collab) == AnalyseTarget(env, collab, target, None)
    ensures var target := TargetOf(key, env);
            !(target.InputFile? || target.PackageGroup?) ==>
              Compute(key, env, collab) == AnalyseTarget(env, collab, target, key.configuration)
  {
  }

  /** So the result for an input file or a package group does not depend on
      the configuration asked for. */
  lemma ComputeIgnoresConfigurationOfFilesAndGroups(l: Label, c1: Configuration, c2: Configuration,
                                                    env: Environment, collab: Collaborators)
    requires Found(Key(l, c1), env)
    requires TargetOf(Key(l, c1), env).InputFile? || TargetOf(Key(l, c1), env).PackageGroup?
    ensures Compute(Key(l, c1), env, collab) == Compute(Key(l, c2), env, collab)
  {
    ComputeAnalysesInNormalizedConfiguration(Key(l, c1), env, collab);
    ComputeAnalysesInNormalizedConfiguration(Key(l, c2), env, collab);
  }

  /** A direct dependency error of the found target stops the whole
      computation with a missing-edge error from that target. */
  lemma ComputeFailsOnDirectDependencyError(key: Key, env: Environment, collab: Collaborators,
                                            conditions: seq<ConfigMatchingProvider>, env1: Environment,
                                            names: Entries<TargetAndConfiguration>, missing: bool, i: nat)
    requires Found(key, env) && collab.resolverAvailable
    requires var target := TargetOf(key, env);
             var ctg := TargetAndConfiguration(target, NormalizeConfiguration(target, key.configuration));
             && GetConfigConditions(target, env, collab, ctg) == Ok((conditions, env1))
             && collab.dependentNodeMap(ctg, conditions) == Success((names, missing))
    requires i < |names| && DirectFailure(env, ToKey(names[i].1))
    ensures var r := Compute(key, env, collab);
            r.Fail? && r.error.MissingEdge? && r.error.from == TargetOf(key, env).targetLabel
  {
    var target := TargetOf(key, env);
    var configuration := NormalizeConfiguration(target, key.configuration);
    assert env1.Lookup(ToKey(names[i].1)) == env.Lookup(ToKey(names[i].1));
    DirectDependencyErrorFails(env1, collab, target, configuration, conditions, names, missing, i);
  }

  /** A successful computation is what rule construction produced for the
      found target in its normalised configuration, given the resolved
      conditions and the dependencies regrouped per attribute. */
  lemma ComputeSuccessCarriesConstruction(key: Key, env: Environment, collab: Collaborators,
                                          conditions: seq<ConfigMatchingProvider>, env1: Environment,
                                          names: Entries<TargetAndConfiguration>, missing: bool)
    requires Found(key, env)
    requires var target := TargetOf(key, env);
             var ctg := TargetAndConfiguration(target, NormalizeConfiguration(target, key.configuration));
             && GetConfigConditions(target, env, collab, ctg) == Ok((conditions, env1))
             && collab.dependentNodeMap(ctg, conditions) == Success((names, missing))
    requires Compute(key, env, collab).Ok?
    ensures var target := TargetOf(key, env);
            var configuration := NormalizeConfiguration(target, key.configuration);
            exists depValueMap :: IsDependencyMap(env1, names, depValueMap)
              && var c := collab.createAndInitialize(target, configuration, depValueMap, conditions);
                 Compute(key, env, collab) == Ok(ConfiguredTargetValue(c.configuredTarget, c.actions))
  {
    var target := TargetOf(key, env);
    var configuration := NormalizeConfiguration(target, key.configuration);
    assert Compute(key, env, collab) == AnalyseWithConditions(env1, collab, target, configuration, conditions);
    SuccessCarriesConstruction(env1, collab, target, configuration, conditions, names, missing);
  }

  /** A direct dependency error stops the computation with a missing-edge
      error from the target being analysed, whatever rule construction would
      have done. */
  lemma DirectDependencyErrorFails(env: Environment, collab: Collaborators, target: Target,
                                   configuration: Configuration, conditions: seq<ConfigMatchingProvider>,
                                   names: Entries<TargetAndConfiguration>, missing: bool, i: nat)
    requires collab.dependentNodeMap(TargetAndConfiguration(target, configuration), conditions)
             == Success((names, missing))
    requires i < |names| && DirectFailure(env, ToKey(names[i].1))
    ensures var r := AnalyseWithConditions(env, collab, target, configuration, conditions);
            r.Fail? && r.error.MissingEdge? && r.error.from == target.targetLabel
  {
    var deps := TargetsOf(names);
    assert deps[i] == names[i].1;
    assert DirectFailure(env.Requested(missing), ToKey(deps[i]));
  }

  /** `m` holds, per attribute of the entries, the configured targets of that
      attribute's dependencies in entry order, and no other attribute. */
  ghost predicate IsDependencyMap(env: Environment, names: Entries<TargetAndConfiguration>,
                            m: map<Attribute, seq<ConfiguredTarget>>)
  {
    && (forall a :: a in m <==> exists j :: 0 <= j < |names| && names[j].0 == a)
    && forall a :: a in m ==>
         |m[a]| == |ValuesFor(names, a)|
         && forall j :: 0 <= j < |m[a]| ==>
              Available(env, ToKey(ValuesFor(names, a)[j]))
              && m[a][j] == env.Lookup(ToKey(ValuesFor(names, a)[j])).value.configuredTarget
  }

  /** A successful value is exactly what rule construction produced, from the
      dependencies regrouped per attribute in resolver order. */
  lemma SuccessCarriesConstruction(env: Environment, collab: Collaborators, target: Target,
                                   configuration: Configuration, conditions: seq<ConfigMatchingProvider>,
                                   names: Entries<TargetAndConfiguration>, missing: bool)
    requires collab.dependentNodeMap(TargetAndConfiguration(target, configuration), conditions)
             == Success((names, missing))
    requires AnalyseWithConditions(env, collab, target, configuration, conditions).Ok?
    ensures exists depValueMap :: IsDependencyMap(env, names, depValueMap)
              && var c := collab.createAndInitialize(target, configuration, depValueMap, conditions);
                 AnalyseWithConditions(env, collab, target, configuration, conditions)
                 == Ok(ConfiguredTargetValue(c.configuredTarget, c.actions))
  {
    var env2 := env.Requested(missing);
    var resolved := ResolveDependencies(env2, TargetsOf(names), target);
    assert resolved.Ok?;
    var values := resolved.value;
    assert forall i :: 0 <= i < |names| ==>
             ToKey(names[i].1) in values && Available(env, ToKey(names[i].1))
             && values[ToKey(names[i].1)] == env.Lookup(ToKey(names[i].1)).value;
    var depValueMap := Regroup(DepValueEntries(names, values));
    assert AnalyseWithConditions(env, collab, target, configuration, conditions)
           == CreateConfiguredTarget(env2, collab, target, configuration, depValueMap, conditions);
    DependencyMapPerAttribute(env, names, values);
  }

  /** The regrouped dependency map lists, per attribute, the configured targets
      of that attribute's entries in order. */
  lemma DependencyMapPerAttribute(env: Environment, names: Entries<TargetAndConfiguration>,
                                  values: map<Key, ConfiguredTargetValue>)
    requires forall i :: 0 <= i < |names| ==>
               ToKey(names[i].1) in values && Available(env, ToKey(names[i].1))
               && values[ToKey(names[i].1)] == env.Lookup(ToKey(names[i].1)).value
    ensures IsDependencyMap(env, names, Regroup(DepValueEntries(names, values)))
  {
    var entries := DepValueEntries(names, values);
    var depValueMap := Regroup(entries);
    forall a | a in depValueMap
      ensures |depValueMap[a]| == |ValuesFor(names, a)|
      ensures forall j :: 0 <= j < |depValueMap[a]| ==>
                Available(env, ToKey(ValuesFor(names, a)[j]))
                && depValueMap[a][j] == env.Lookup(ToKey(ValuesFor(names, a)[j])).value.configuredTarget
    {
      RegroupPerAttribute(entries, a);
      ValuesForMapped(names, values, a);
      forall j | 0 <= j < |ValuesFor(names, a)|
        ensures Available(env, ToKey(ValuesFor(names, a)[j]))
        ensures values[ToKey(ValuesFor(names, a)[j])] == env.Lookup(ToKey(ValuesFor(names, a)[j])).value
      {
        var x := ValuesFor(names, a)[j];
        ValuesForMember(names, a, x);
      }
    }
    forall a | exists j :: 0 <= j < |names| && names[j].0 == a
      ensures a in depValueMap
    {
      var j :| 0 <= j < |names| && names[j].0 == a;
      assert entries[j].0 == a;
    }
  }

  lemma {:induction false} ValuesForMember<V>(entries: Entries<V>, a: Attribute, x: V)
    requires x in ValuesFor(entries, a)
    ensures exists j :: 0 <= j < |entries| && entries[j] == (a, x)
  {
    var n := |entries| - 1;
    if x in ValuesFor(entries[..n], a) {
      ValuesForMember(entries[..n], a, x);
      var j :| 0 <= j < n && entries[..n][j] == (a, x);
      assert entries[j] == (a, x);
    }
  }

  /** Looking the dependencies up commutes with selecting one attribute's entries. */
  lemma {:induction false} ValuesForMapped(names: Entries<TargetAndConfiguration>,
                                           values: map<Key, ConfiguredTargetValue>, a: Attribute)
    requires forall i :: 0 <= i < |names| ==> ToKey(names[i].1) in values
    ensures |ValuesFor(DepValueEntries(names, values), a)| == |ValuesFor(names, a)|
    ensures forall j :: 0 <= j < |ValuesFor(names, a)| ==>
              ToKey(ValuesFor(names, a)[j]) in values
              && ValuesFor(DepValueEntries(names, values), a)[j]
                 == values[ToKey(ValuesFor(names, a)[j])].configuredTarget
  {
    if names != [] {
      var n := |names| - 1;
      ValuesForMapped(names[..n], values, a);
      assert DepValueEntries(names, values)[..n] == DepValueEntries(names[..n], values);
    }
  }
}

=== FILE: ios_sdk_commands.dfy ===
/** Argument and path builders used when invoking the iOS SDK tools (clang, Xcode
    project settings). All of them are pure functions of an `ObjcConfiguration`. */
module IosSdkCommands {
  import opened Collections
  import opened Paths

  const MinimumOsVersion: string := "7.0"
  const DeveloperDir: string := "/Applications/Xcode.app/Contents/Developer"
  const SimulatorVersionMinFlag: string := "-mios-simulator-version-min=" + MinimumOsVersion

  datatype Platform = Device | Simulator

  /** The parts of the Objective-C build configuration these commands read.
      `platformNameInPlist` is the platform's name as it appears in Info.plist
      files and SDK directory names. */
  datatype ObjcConfiguration = ObjcConfiguration(
    platform: Platform,
    platformNameInPlist: string,
    iosSdkVersion: string,
    iosCpu: string,
    generateDebugSymbols: bool)

  /** One Xcode project build setting, `name = value`. */
  datatype BuildSetting = BuildSetting(name: string, value: string)

  /** Xcode warning settings and the clang flag each one corresponds to, in
      insertion order (the source keeps them in an insertion-ordered map). */
  const DefaultWarnings: seq<(string, string)> := [
    ("GCC_WARN_64_TO_32_BIT_CONVERSION", "-Wshorten-64-to-32"),
    ("CLANG_WARN_BOOL_CONVERSION", "-Wbool-conversion"),
    ("CLANG_WARN_CONSTANT_CONVERSION", "-Wconstant-conversion"),
    ("CLANG_WARN__DUPLICATE_METHOD_MATCH", "-Wduplicate-method-match"),
    ("CLANG_WARN_EMPTY_BODY", "-Wempty-body"),
    ("CLANG_WARN_ENUM_CONVERSION", "-Wenum-conversion"),
    ("CLANG_WARN_INT_CONVERSION", "-Wint-conversion"),
    ("CLANG_WARN_UNREACHABLE_CODE", "-Wunreachable-code"),
    ("GCC_WARN_ABOUT_RETURN_TYPE", "-Wmismatched-return-types"),
    ("GCC_WARN_UNDECLARED_SELECTOR", "-Wundeclared-selector"),
    ("GCC_WARN_UNINITIALIZED_AUTOS", "-Wuninitialized"),
    ("GCC_WARN_UNUSED_FUNCTION", "-Wunused-function"),
    ("GCC_WARN_UNUSED_VARIABLE", "-Wunused-variable")
  ]

  /** Clang's own default optimisation level, stated so Xcode matches it. */
  const DefaultCompilerFlags: seq<string> := ["-O0"]

  const DefaultLinkerFlags: seq<string> := ["-ObjC"]

  function WarningKeys(entries: seq<(string, string)>): (keys: seq<string>)
    ensures |keys| == |entries|
    ensures forall i :: 0 <= i < |entries| ==> keys[i] == entries[i].0
  {
    seq(|entries|, i requires 0 <= i < |entries| => entries[i].0)
  }

  function WarningValues(entries: seq<(string, string)>): (values: seq<string>)
    ensures |values| == |entries|
    ensures forall i :: 0 <= i < |entries| ==> values[i] == entries[i].1
  {
    seq(|entries|, i requires 0 <= i < |entries| => entries[i].1)
  }

  function PlatformDir(c: ObjcConfiguration): string {
    DeveloperDir + "/Platforms/" + c.platformNameInPlist + ".platform"
  }

  /** The SDK root directory for the configured platform and SDK version. */
  function SdkDir(c: ObjcConfiguration): (dir: string)
    ensures StartsWith(dir, PlatformDir(c) + "/Developer/SDKs/")
    ensures EndsWith(dir, ".sdk")
  {
    PlatformDir(c) + "/Developer/SDKs/" + c.platformNameInPlist + c.iosSdkVersion + ".sdk"
  }

  /** Reads the SDK version back out of an SDK directory built for the platform
      called `name`: the text between the directory prefix and ".sdk". */
  function SdkVersionOf(dir: string, name: string): string
    requires |dir| >= |SdkDirPrefix(name)| + 4
  {
    dir[|SdkDirPrefix(name)| .. |dir| - 4]
  }

  /** Everything of an SDK directory before the version: the platform
      directory, the SDK folder and the platform name again. */
  function SdkDirPrefix(name: string): string {
    DeveloperDir + "/Platforms/" + name + ".platform" + "/Developer/SDKs/" + name
  }

  /** The middle part of a three-part concatenation is recovered by cutting
      off the first and the last part. */
  lemma MiddleOfThree(first: string, middle: string, last: string)
    ensures StartsWith(first + middle + last, first)
    ensures |first + middle + last| == |first| + |middle| + |last|
    ensures (first + middle + last)[|first| .. |first + middle + last| - |last|] == middle
  {
    assert (first + middle + last)[..|first|] == first;
  }

  /** The SDK directory is the platform's SDK prefix followed by
      `<version>.sdk`, and the version can be read back from it. */
  lemma SdkDirRoundTrip(c: ObjcConfiguration)
    ensures StartsWith(SdkDir(c), SdkDirPrefix(c.platformNameInPlist))
    ensures |SdkDir(c)| == |SdkDirPrefix(c.platformNameInPlist)| + |c.iosSdkVersion| + 4
    ensures SdkVersionOf(SdkDir(c), c.platformNameInPlist) == c.iosSdkVersion
  {
    MiddleOfThree(SdkDirPrefix(c.platformNameInPlist), c.iosSdkVersion, ".sdk");
  }

  /** Two configurations for the same platform share an SDK directory only if
      they name the same SDK version. */
  lemma SdkDirDeterminesVersion(c1: ObjcConfiguration, c2: ObjcConfiguration)
    requires c1.platformNameInPlist == c2.platformNameInPlist
    requires SdkDir(c1) == SdkDir(c2)
    ensures c1.iosSdkVersion == c2.iosSdkVersion
  {
    SdkDirRoundTrip(c1);
    SdkDirRoundTrip(c2);
  }

  function Parents(paths: seq<PathFragment>): (parents: seq<PathFragment>)
    requires forall p :: p in paths ==> p.segments != []
    ensures |parents| == |paths|
    ensures forall i :: 0 <= i < |paths| ==> parents[i] == paths[i].ParentDirectory()
  {
    seq(|paths|, i requires 0 <= i < |paths| => paths[i].ParentDirectory())
  }

  /** The parent directory of every path, each once, in first-occurrence order. */
  function UniqueParentDirectories(paths: seq<PathFragment>): (parents: seq<PathFragment>)
    requires forall p :: p in paths ==> p.segments != []
    ensures NoDuplicates(parents)
    ensures forall i :: 0 <= i < |paths| ==> paths[i].ParentDirectory() in parents
    ensures forall q :: q in parents ==> exists p :: p in paths && p.ParentDirectory() == q
  {
    var all := Parents(paths);
    var r := Deduplicate(all);
    assert forall i :: 0 <= i < |r| ==> r[i] in all;
    r
  }

  lemma UniqueParentDirectoriesOrder(paths: seq<PathFragment>)
    requires forall p :: p in paths ==> p.segments != []
    ensures InFirstOccurrenceOrder(UniqueParentDirectories(paths), Parents(paths))
  {
    DeduplicateOrder(Parents(paths));
  }

  function SafePathStrings(paths: seq<PathFragment>): (strings: seq<string>)
    ensures |strings| == |paths|
    ensures forall i :: 0 <= i < |paths| ==> strings[i] == paths[i].SafePathString()
  {
    seq(|paths|, i requires 0 <= i < |paths| => paths[i].SafePathString())
  }

  /** Number of leading optional flags: the simulator minimum version and "-g". */
  function LeadingFlagCount(c: ObjcConfiguration): nat {
    (if c.platform == Simulator then 1 else 0) + (if c.generateDebugSymbols then 1 else 0)
  }

  /** Arguments shared by clang compile and link invocations; `frameworkDirs`
      are the framework directories the Objective-C provider collected. */
  function CommonLinkAndCompileArgsForClang(frameworkDirs: seq<PathFragment>, c: ObjcConfiguration): (args: seq<string>)
    requires forall p :: p in frameworkDirs ==> p.segments != []
    ensures |args| >= LeadingFlagCount(c) + 6
    ensures args[0] == SimulatorVersionMinFlag <==> c.platform == Simulator
    ensures args[if c.platform == Simulator then 1 else 0] == "-g" <==> c.generateDebugSymbols
    ensures var n := LeadingFlagCount(c);
            args[n..n + 6] == ["-arch", c.iosCpu, "-isysroot", SdkDir(c),
                               "-F", SdkDir(c) + "/Developer/Library/Frameworks"]
    ensures var n := LeadingFlagCount(c);
            args[n + 6..] == BeforeEach("-F", SafePathStrings(UniqueParentDirectories(frameworkDirs)))
  {
    var leading := LeadingFlags(c);
    var fixed := ["-arch", c.iosCpu, "-isysroot", SdkDir(c),
                  "-F", SdkDir(c) + "/Developer/Library/Frameworks"];
    var search := BeforeEach("-F", SafePathStrings(UniqueParentDirectories(frameworkDirs)));
    var args := leading + (fixed + search);
    assert args[|leading|..] == fixed + search;
    assert args[|leading|..][..6] == fixed;
    assert args[|leading| + 6..] == search;
    args
  }

  function LeadingFlags(c: ObjcConfiguration): (flags: seq<string>)
    ensures |flags| == LeadingFlagCount(c)
    ensures |flags| > 0 ==> (flags[0] == SimulatorVersionMinFlag <==> c.platform == Simulator)
    ensures c.platform == Simulator && c.generateDebugSymbols ==> flags[1] == "-g"
    ensures c.platform == Device && c.generateDebugSymbols ==> flags[0] == "-g"
  {
    (if c.platform == Simulator then [SimulatorVersionMinFlag] else [])
    + (if c.generateDebugSymbols then ["-g"] else [])
  }

  /** Extra compile flags Xcode adds when building for the simulator, which runs
      on the desktop Objective-C runtime. */
  function PlatformSpecificCompileArgsForClang(platform: Platform): (args: seq<string>)
    ensures args == [] <==> platform == Device
    ensures forall a :: a in args ==> StartsWith(a, "-f")
    ensures platform == Simulator ==>
              args == ["-fexceptions", "-fasm-blocks", "-fobjc-abi-version=2", "-fobjc-legacy-dispatch"]
  {
    match platform
    case Device => []
    case Simulator => ["-fexceptions", "-fasm-blocks", "-fobjc-abi-version=2", "-fobjc-legacy-dispatch"]
  }

  /** The compile-only clang flags: every default warning flag in key order, the
      default optimisation level, then the platform-specific flags. */
  function CompileArgsForClang(c: ObjcConfiguration): (args: seq<string>)
    ensures var w := |DefaultWarnings|;
            && |args| == w + 1 + |PlatformSpecificCompileArgsForClang(c.platform)|
            && (forall i :: 0 <= i < w ==> args[i] == DefaultWarnings[i].1)
            && args[w] == "-O0"
            && args[w + 1..] == PlatformSpecificCompileArgsForClang(c.platform)
    ensures c.platform == Device ==> |args| == |DefaultWarnings| + 1
    ensures c.platform == Simulator ==>
              args[|DefaultWarnings| + 1..]
              == ["-fexceptions", "-fasm-blocks", "-fobjc-abi-version=2", "-fobjc-legacy-dispatch"]
  {
    WarningValues(DefaultWarnings) + DefaultCompilerFlags + PlatformSpecificCompileArgsForClang(c.platform)
  }

  function WarningSettings(keys: seq<string>): (settings: seq<BuildSetting>)
    ensures |settings| == |keys|
    ensures forall i :: 0 <= i < |keys| ==> settings[i] == BuildSetting(keys[i], "YES")
  {
    seq(|keys|, i requires 0 <= i < |keys| => BuildSetting(keys[i], "YES"))
  }

  /** Xcode build settings turning on each default warning. */
  function DefaultWarningsForXcode(): (settings: seq<BuildSetting>)
    ensures |settings| == |DefaultWarnings|
    ensures forall i :: 0 <= i < |DefaultWarnings| ==>
              settings[i].name == DefaultWarnings[i].0 && settings[i].value == "YES"
  {
    WarningSettings(WarningKeys(DefaultWarnings))
  }

  function SettingNames(settings: seq<BuildSetting>): (names: seq<string>)
    ensures |names| == |settings|
    ensures forall i :: 0 <= i < |settings| ==> names[i] == settings[i].name
  {
    seq(|settings|, i requires 0 <= i < |settings| => settings[i].name)
  }

  /** The warning table names each setting once, shown for the entries at
      `i` in one of three ranges against every later entry. */
  lemma WarningKeysDistinctAfter(i: nat, lo: nat, hi: nat)
    requires lo <= i < hi <= |DefaultWarnings|
    requires (lo, hi) in [(0, 4), (4, 8), (8, 13)]
    ensures forall j :: i < j < |DefaultWarnings| ==> DefaultWarnings[i].0 != DefaultWarnings[j].0
  {
  }

  /** Every warning is set once: the setting names are pairwise distinct. */
  lemma DefaultWarningsForXcodeDistinct()
    ensures NoDuplicates(SettingNames(DefaultWarningsForXcode()))
  {
    var names := SettingNames(DefaultWarningsForXcode());
    forall i, j | 0 <= i < j < |names|
      ensures names[i] != names[j]
    {
      if i < 4 {
        WarningKeysDistinctAfter(i, 0, 4);
      } else if i < 8 {
        WarningKeysDistinctAfter(i, 4, 8);
      } else {
        WarningKeysDistinctAfter(i, 8, 13);
      }
    }
  }

  /** Every default warning value passed to clang is a "-W" flag. */
  lemma DefaultWarningFlagsAreWarnings()
    ensures forall i :: 0 <= i < |DefaultWarnings| ==> StartsWith(DefaultWarnings[i].1, "-W")
  {
  }
}

=== FILE: java_library_build_request.dfy ===
/** The command-line parser of the Java library builder: an index-walking scan
    of the argument list that fills in a build request and records the calls it
    makes on the dependency-module builder. */
module JavaLibraryBuildRequest {
  import opened Wrappers
  import opened Collections

  /** A post processor as handed to the post-processor factory: its name and
      the arguments collected for it. */
  datatype PostProcessorSpec = PostProcessorSpec(name: string, arguments: seq<string>)

  /** The calls the parser makes on the dependency-module builder, in order. */
  datatype DependencyCall =
    | AddDirectMapping(jar: string, target: string)
    | AddIndirectMapping(jar: string, target: string)
    | SetStrictJavaDeps(mode: string)
    | SetOutputDepsFile(path: string)
    | SetOutputDepsProtoFile(path: string)
    | AddDepsArtifacts(paths: seq<string>)
    | SetReduceClasspath
    | SetRuleKind(kind: Option<string>)
    | SetTargetLabel(targetLabel: Option<string>)

  /** Every field the parser sets; `None` is a field still holding `null`. */
  datatype Request = Request(
    compressJar: bool,
    sourceFiles: seq<string>,
    sourceJars: seq<string>,
    messageFiles: seq<string>,
    resourceFiles: seq<string>,
    resourceJars: seq<string>,
    rootResourceFiles: seq<string>,
    classPath: Option<string>,
    processorPath: string,
    processorNames: seq<string>,
    classDir: string,
    tempDir: string,
    outputJar: Option<string>,
    genDir: Option<string>,
    postProcessors: seq<PostProcessorSpec>,
    ruleKind: Option<string>,
    targetLabel: Option<string>,
    javacOpts: seq<string>,
    sourceGenDir: Option<string>,
    generatedSourcesOutputJar: Option<string>,
    toolContextProtoFile: Option<string>,
    dependencyCalls: seq<DependencyCall>)

  /** The field initialisers. The class directory deliberately does not default
      to ".", because running the tool without arguments clears it. */
  const Initial: Request := Request(
    false, [], [], [], [], [], [], None, "", [], "classes", "_tmp", None, None, [],
    None, None, [], None, None, None, [])

  datatype CommandLineError =
    | UnknownOption(arg: string)
    | MissingArgument(flag: string)
    | ProcessorArgumentWithComma(arg: string)
  {
    function Message(): string {
      match this
      case UnknownOption(arg) => "unknown option : '" + arg + "'"
      case MissingArgument(flag) => flag + ": missing argument"
      case ProcessorArgumentWithComma(arg) => "processor argument may not contain commas: " + arg
    }
  }

  /** The case labels of the main loop's switch. */
  datatype MainFlag =
    | JavacOpts | DirectDependency | IndirectDependency | StrictJavaDeps | OutputDeps
    | OutputDepsProto | ToolContextProto | DepsArtifacts | ReduceClasspath | SourceGenDir
    | GeneratedSourcesOutput

  /** The case labels of `ProcessArg`, the overridable second switch. */
  datatype ArgFlag =
    | Sources | SourceJars | Messages | Resources | ResourceJars | ClasspathResources
    | ClassPath | ProcessorPath | Processors | Output | ClassDir | TempDir | GenDir
    | PostProcessor | CompressJar | RuleKind | TargetLabel

  /** The main loop's switch: each case's string with the case it selects. */
  const MainSwitch: seq<(string, MainFlag)> := [
    ("--javacopts", JavacOpts), ("--direct_dependency", DirectDependency),
    ("--indirect_dependency", IndirectDependency), ("--strict_java_deps", StrictJavaDeps),
    ("--output_deps", OutputDeps), ("--output_deps_proto", OutputDepsProto),
    ("--tool_context_proto", ToolContextProto), ("--deps_artifacts", DepsArtifacts),
    ("--reduce_classpath", ReduceClasspath), ("--sourcegendir", SourceGenDir),
    ("--generated_sources_output", GeneratedSourcesOutput)]

  /** The second switch, in the same form. */
  const ArgSwitch: seq<(string, ArgFlag)> := [
    ("--sources", Sources), ("--source_jars", SourceJars), ("--messages", Messages),
    ("--resources", Resources), ("--resource_jars", ResourceJars),
    ("--classpath_resources", ClasspathResources), ("--classpath", ClassPath),
    ("--processorpath", ProcessorPath), ("--processors", Processors), ("--output", Output),
    ("--classdir", ClassDir), ("--tempdir", TempDir), ("--gendir", GenDir),
    ("--post_processor", PostProcessor), ("--compress_jar", CompressJar),
    ("--rule_kind", RuleKind), ("--target_label", TargetLabel)]

  /** Whether some case of the switch has the string `arg`. */
  predicate Handles<T>(cases: seq<(string, T)>, arg: string) {
    exists j :: 0 <= j < |cases| && cases[j].0 == arg
  }

  /** The case a string switch selects for `arg`, looking at the cases from
      index `from` on: the first whose string equals `arg`, or `None` for the
      default branch. A Java switch has no two equal case strings, so the
      first match is the only one. */
  function Select<T>(cases: seq<(string, T)>, arg: string, from: nat): Option<T>
    decreases |cases| - from
  {
    if from >= |cases| then None
    else if cases[from].0 == arg then Some(cases[from].1)
    else Select(cases, arg, from + 1)
  }

  /** The switch takes the default branch exactly when no case has the string. */
  lemma {:induction false} SelectDefault<T>(cases: seq<(string, T)>, arg: string, from: nat)
    ensures Select(cases, arg, from).None? <==> forall j :: from <= j < |cases| ==> cases[j].0 != arg
    decreases |cases| - from
  {
    if from < |cases| {
      SelectDefault(cases, arg, from + 1);
    }
  }

  /** The case at index `j` is selected by its own string when no earlier case
      has that string. */
  lemma {:induction false} SelectCase<T>(cases: seq<(string, T)>, from: nat, j: nat)
    requires from <= j < |cases|
    requires forall m :: from <= m < j ==> cases[m].0 != cases[j].0
    ensures Select(cases, cases[j].0, from) == Some(cases[j].1)
    decreases j - from
  {
    if from < j {
      SelectCase(cases, from + 1, j);
    }
  }

  /** A selected case is an entry of the switch whose string is `arg`. */
  lemma {:induction false} SelectedEntry<T>(cases: seq<(string, T)>, arg: string, from: nat)
    requires Select(cases, arg, from).Some?
    ensures exists j :: from <= j < |cases| && cases[j] == (arg, Select(cases, arg, from).value)
    decreases |cases| - from
  {
    if cases[from].0 != arg {
      SelectedEntry(cases, arg, from + 1);
    }
  }

  /** The three directory cases of the second switch and their strings. */
  lemma DirectoryCases()
    ensures forall j :: 0 <= j < |ArgSwitch| && ArgSwitch[j].1 == ClassDir ==> ArgSwitch[j].0 == "--classdir"
    ensures forall j :: 0 <= j < |ArgSwitch| && ArgSwitch[j].1 == TempDir ==> ArgSwitch[j].0 == "--tempdir"
    ensures forall j :: 0 <= j < |ArgSwitch| && ArgSwitch[j].1 == ProcessorPath ==> ArgSwitch[j].0 == "--processorpath"
  {
  }

  /** One index past the last collected argument. */
  function CollectEnd(args: seq<string>, next: nat): nat {
    if next < |args| then next + 1 else |args|
  }

  /** The collection loop, resumed at index `j`. */
  function CollectFrom(args: seq<string>, j: nat, prefix: string): (r: (seq<string>, nat))
    requires j >= 1
    ensures j >= |args| ==> r == ([], j)
    ensures j < |args| ==> j - 1 <= r.1 <= |args| && r.0 == args[j..CollectEnd(args, r.1)]
    ensures r.1 < |args| ==> r.1 + 1 < |args| && StartsWith(args[r.1 + 1], prefix)
    ensures forall x :: x in r.0 ==> !StartsWith(x, prefix)
    decreases |args| - j
  {
    if j >= |args| then ([], j)
    else if StartsWith(args[j], prefix) then ([], j - 1)
    else
      var rest := CollectFrom(args, j + 1, prefix);
      ([args[j]] + rest.0, rest.1)
  }

  /** Collects the arguments after the flag at `start` up to, not including, the
      first one that starts with `prefix`; returns them with the index of the
      last argument consumed (the end of the list when no terminator follows). */
  function CollectFlagArguments(args: seq<string>, start: nat, prefix: string): (r: (seq<string>, nat))
    ensures start + 1 >= |args| ==> r == ([], start + 1)
    ensures start < |args| ==> start <= r.1 <= |args| && r.0 == args[start + 1..CollectEnd(args, r.1)]
    ensures r.1 < |args| ==> r.1 + 1 < |args| && StartsWith(args[r.1 + 1], prefix)
    ensures forall x :: x in r.0 ==> !StartsWith(x, prefix)
  {
    CollectFrom(args, start + 1, prefix)
  }

  /** Collection stops exactly at the first argument after `start` that starts
      with the prefix: given that index `k` (or the end of the list), the
      collected arguments are those strictly between, and the returned index is
      `k - 1`, or the list length when there is no terminator. */
  lemma CollectStopsAtFirstTerminator(args: seq<string>, start: nat, prefix: string, k: nat)
    requires start < k <= |args|
    requires forall j :: start < j < k ==> !StartsWith(args[j], prefix)
    requires k < |args| ==> StartsWith(args[k], prefix)
    ensures CollectFlagArguments(args, start, prefix) ==
              (args[start + 1..k], if k < |args| then k - 1 else |args|)
  {
  }

  /** The argument following index `i`, or an error naming the flag. */
  function GetArgument(args: seq<string>, i: nat, flag: string): (r: Result<string, CommandLineError>)
    ensures r.Success? <==> i + 1 < |args|
    ensures r.Success? ==> r.value == args[i + 1]
    ensures r.Failure? ==> r.error == MissingArgument(flag)
  {
    if i + 1 < |args| then Success(args[i + 1]) else Failure(MissingArgument(flag))
  }

  /** The first element that contains a comma, if any. */
  function FirstWithComma(xs: seq<string>): (r: Option<string>)
    ensures r.None? <==> forall x :: x in xs ==> ',' !in x
    ensures r.Some? ==> r.value in xs && ',' in r.value
    ensures r.Some? ==> exists i :: 0 <= i < |xs| && xs[i] == r.value && forall j :: 0 <= j < i ==> ',' !in xs[j]
  {
    if xs == [] then None
    else if ',' in xs[0] then Some(xs[0])
    else
      var r := FirstWithComma(xs[1..]);
      FirstCommaInTail(xs, r);
      r
  }

  /** A first comma-carrying element of the tail is also the first of the
      whole sequence when the head carries none. */
  lemma FirstCommaInTail(xs: seq<string>, r: Option<string>)
    requires xs != [] && ',' !in xs[0]
    requires r.Some? ==> exists i :: 0 <= i < |xs[1..]| && xs[1..][i] == r.value
                                     && forall j :: 0 <= j < i ==> ',' !in xs[1..][j]
    ensures r.Some? ==> exists i :: 0 <= i < |xs| && xs[i] == r.value && forall j :: 0 <= j < i ==> ',' !in xs[j]
  {
    if r.Some? {
      var i :| 0 <= i < |xs[1..]| && xs[1..][i] == r.value && forall j :: 0 <= j < i ==> ',' !in xs[1..][j];
      assert xs[i + 1] == r.value;
      forall j | 0 <= j < i + 1
        ensures ',' !in xs[j]
      {
        if j > 0 {
          assert xs[j] == xs[1..][j - 1];
        }
      }
    }
  }

  /** Collects processor names onto `names`, rejecting any newly collected name
      that contains a comma; names collected earlier are not checked again. */
  function CollectProcessorArguments(args: seq<string>, start: nat, names: seq<string>, prefix: string)
    : (r: Result<(nat, seq<string>), CommandLineError>)
    ensures var c := CollectFlagArguments(args, start, prefix);
            && (r.Success? <==> forall x :: x in c.0 ==> ',' !in x)
            && (r.Success? ==> r.value == (c.1, names + c.0))
            && (r.Failure? ==> r.error.ProcessorArgumentWithComma? && r.error.arg in c.0 && ',' in r.error.arg)
            && (r.Failure? ==> exists i :: 0 <= i < |c.0| && c.0[i] == r.error.arg
                                           && forall j :: 0 <= j < i ==> ',' !in c.0[j])
  {
    var c := CollectFlagArguments(args, start, prefix);
    match FirstWithComma(c.0)
    case Some(bad) => Failure(ProcessorArgumentWithComma(bad))
    case None => Success((c.1, names + c.0))
  }

  /** Reads a post processor's name and the arguments up to the next "--" flag. */
  function AddExternalPostProcessor(args: seq<string>, i: nat, flag: string, req: Request)
    : (r: Result<(nat, Request), CommandLineError>)
    requires i < |args|
    ensures r.Success? ==> i < r.value.0 <= |args|
  {
    var name :- GetArgument(args, i, flag);
    var c := CollectFlagArguments(args, i + 1, "--");
    Success((c.1, req.(postProcessors := req.postProcessors + [PostProcessorSpec(name, c.0)])))
  }

  /** The body of one case of the second switch, for the flag `arg` at index
      `i`: returns the index of the last argument consumed. */
  function ArgCase(flag: ArgFlag, arg: string, args: seq<string>, i: nat, req: Request)
    : (r: Result<(nat, Request), CommandLineError>)
    requires i < |args|
    ensures r.Success? ==> i <= r.value.0 <= |args|
  {
    match flag
    case Sources =>
      var c := CollectFlagArguments(args, i, "-");
      Success((c.1, req.(sourceFiles := req.sourceFiles + c.0)))
    case SourceJars =>
      var c := CollectFlagArguments(args, i, "-");
      Success((c.1, req.(sourceJars := req.sourceJars + c.0)))
    case Messages =>
      var c := CollectFlagArguments(args, i, "-");
      Success((c.1, req.(messageFiles := req.messageFiles + c.0)))
    case Resources =>
      var c := CollectFlagArguments(args, i, "-");
      Success((c.1, req.(resourceFiles := req.resourceFiles + c.0)))
    case ResourceJars =>
      var c := CollectFlagArguments(args, i, "-");
      Success((c.1, req.(resourceJars := req.resourceJars + c.0)))
    case ClasspathResources =>
      var c := CollectFlagArguments(args, i, "-");
      Success((c.1, req.(rootResourceFiles := req.rootResourceFiles + c.0)))
    case ClassPath =>
      var v :- GetArgument(args, i, arg);
      Success((i + 1, req.(classPath := Some(v))))
    case ProcessorPath =>
      var v :- GetArgument(args, i, arg);
      Success((i + 1, req.(processorPath := v)))
    case Processors =>
      var c :- CollectProcessorArguments(args, i, req.processorNames, "-");
      Success((c.0, req.(processorNames := c.1)))
    case Output =>
      var v :- GetArgument(args, i, arg);
      Success((i + 1, req.(outputJar := Some(v))))
    case ClassDir =>
      var v :- GetArgument(args, i, arg);
      Success((i + 1, req.(classDir := v)))
    case TempDir =>
      var v :- GetArgument(args, i, arg);
      Success((i + 1, req.(tempDir := v)))
    case GenDir =>
      var v :- GetArgument(args, i, arg);
      Success((i + 1, req.(genDir := Some(v))))
    case PostProcessor =>
      AddExternalPostProcessor(args, i, arg, req)
    case CompressJar =>
      Success((i, req.(compressJar := true)))
    case RuleKind =>
      var v :- GetArgument(args, i, arg);
      Success((i + 1, req.(ruleKind := Some(v))))
    case TargetLabel =>
      var v :- GetArgument(args, i, arg);
      Success((i + 1, req.(targetLabel := Some(v))))
  }

  /** The second switch: returns the index of the last argument consumed, or -1
      when the flag is not one it knows. */
  function ProcessArg(arg: string, args: seq<string>, i: nat, req: Request)
    : (r: Result<(int, Request), CommandLineError>)
    requires i < |args|
    ensures r.Success? ==> r.value.0 == -1 || i <= r.value.0 <= |args|
    ensures r.Success? && r.value.0 == -1 ==> r.value.1 == req
  {
    match Select(ArgSwitch, arg, 0)
    case None => Success((-1, req))
    case Some(flag) =>
      match ArgCase(flag, arg, args, i, req)
      case Failure(e) => Failure(e)
      case Success(p) => Success((p.0 as int, p.1))
  }

  /** The second switch answers -1, leaving the request as it was, exactly for
      the strings none of its cases has; a known flag never yields -1. */
  lemma ProcessArgDefault(arg: string, args: seq<string>, i: nat, req: Request)
    requires i < |args|
    ensures ProcessArg(arg, args, i, req) == Success((-1, req)) <==> !Handles(ArgSwitch, arg)
    ensures ProcessArg(arg, args, i, req).Success? && ProcessArg(arg, args, i, req).value.0 == -1
            ==> !Handles(ArgSwitch, arg)
  {
    SelectDefault(ArgSwitch, arg, 0);
  }

  function AddCall(req: Request, call: DependencyCall): Request {
    req.(dependencyCalls := req.dependencyCalls + [call])
  }

  /** The body of one case of the main loop's switch. */
  function MainCase(flag: MainFlag, args: seq<string>, i: nat, req: Request)
    : (r: Result<(nat, Request), CommandLineError>)
    requires i < |args|
    ensures r.Success? ==> i <= r.value.0 <= |args|
  {
    var arg := args[i];
    match flag
    case JavacOpts =>
      var c := CollectFlagArguments(args, i, "--");
      Success((c.1, req.(javacOpts := req.javacOpts + c.0)))
    case DirectDependency =>
      var jar :- GetArgument(args, i, arg);
      var target :- GetArgument(args, i + 1, arg);
      Success((i + 2, AddCall(req, AddDirectMapping(jar, target))))
    case IndirectDependency =>
      var jar :- GetArgument(args, i, arg);
      var target :- GetArgument(args, i + 1, arg);
      Success((i + 2, AddCall(req, AddIndirectMapping(jar, target))))
    case StrictJavaDeps =>
      var v :- GetArgument(args, i, arg);
      Success((i + 1, AddCall(req, SetStrictJavaDeps(v))))
    case OutputDeps =>
      var v :- GetArgument(args, i, arg);
      Success((i + 1, AddCall(req, SetOutputDepsFile(v))))
    case OutputDepsProto =>
      var v :- GetArgument(args, i, arg);
      Success((i + 1, AddCall(req, SetOutputDepsProtoFile(v))))
    case ToolContextProto =>
      var v :- GetArgument(args, i, arg);
      Success((i + 1, req.(toolContextProtoFile := Some(v))))
    case DepsArtifacts =>
      var c := CollectFlagArguments(args, i, "--");
      Success((c.1, AddCall(req, AddDepsArtifacts(c.0))))
    case ReduceClasspath =>
      Success((i, AddCall(req, SetReduceClasspath)))
    case SourceGenDir =>
      var v :- GetArgument(args, i, arg);
      Success((i + 1, req.(sourceGenDir := Some(v))))
    case GeneratedSourcesOutput =>
      var v :- GetArgument(args, i, arg);
      Success((i + 1, req.(generatedSourcesOutputJar := Some(v))))
  }

  /** One iteration of the main loop: handles the flag at `i` and returns the
      index of the last argument it consumed. */
  function ProcessFlag(args: seq<string>, i: nat, req: Request): (r: Result<(nat, Request), CommandLineError>)
    requires i < |args|
    ensures r.Success? ==> i <= r.value.0 <= |args|
  {
    match Select(MainSwitch, args[i], 0)
    case Some(flag) => MainCase(flag, args, i, req)
    case None =>
      var p :- ProcessArg(args[i], args, i, req);
      if p.0 == -1 then Failure(UnknownOption(args[i])) else Success((p.0 as nat, p.1))
  }

  /** Every string of the main switch selects its own case: no label repeats. */
  lemma MainSelected(j: nat)
    requires j < |MainSwitch|
    ensures Select(MainSwitch, MainSwitch[j].0, 0) == Some(MainSwitch[j].1)
  {
    SelectCase(MainSwitch, 0, j);
  }

  /** Every string of the second switch selects its own case there. */
  lemma ArgSelected(j: nat)
    requires j < |ArgSwitch|
    ensures Select(ArgSwitch, ArgSwitch[j].0, 0) == Some(ArgSwitch[j].1)
  {
    SelectCase(ArgSwitch, 0, j);
  }

  /** The two switches share no string: a flag of the second switch takes the
      main switch's default branch. */
  lemma ArgNotMain(j: nat)
    requires j < |ArgSwitch|
    ensures Select(MainSwitch, ArgSwitch[j].0, 0).None?
  {
    if j < 6 {
      ArgStringsNotMain(j, 0, 6);
    } else if j < 12 {
      ArgStringsNotMain(j, 6, 12);
    } else {
      ArgStringsNotMain(j, 12, 17);
    }
    SelectDefault(MainSwitch, ArgSwitch[j].0, 0);
  }

  /** No string of the second switch is a string of the main switch. */
  lemma ArgStringsNotMain(j: nat, lo: nat, hi: nat)
    requires lo <= j < hi <= |ArgSwitch|
    requires (lo, hi) in [(0, 6), (6, 12), (12, 17)]
    ensures !Handles(MainSwitch, ArgSwitch[j].0)
  {
  }

  /** A flag of the main switch runs the body of its case. */
  lemma MainStep(args: seq<string>, i: nat, req: Request, j: nat)
    requires i < |args| && j < |MainSwitch| && args[i] == MainSwitch[j].0
    ensures ProcessFlag(args, i, req) == MainCase(MainSwitch[j].1, args, i, req)
  {
    MainSelected(j);
  }

  /** A flag of the second switch falls through the main switch's default
      branch and runs the body of its case there. */
  lemma ArgStep(args: seq<string>, i: nat, req: Request, j: nat)
    requires i < |args| && j < |ArgSwitch| && args[i] == ArgSwitch[j].0
    ensures ProcessFlag(args, i, req) == ArgCase(ArgSwitch[j].1, args[i], args, i, req)
  {
    ArgNotMain(j);
    ArgSelected(j);
  }

  /** The main loop from index `i` on: after each flag, resume one past the
      last argument it consumed. */
  function ParseFrom(args: seq<string>, i: nat, req: Request): Result<Request, CommandLineError>
    decreases if i < |args| then |args| - i else 0
  {
    if i >= |args| then Success(req)
    else
      match ProcessFlag(args, i, req)
      case Failure(e) => Failure(e)
      case Success(step) => ParseFrom(args, step.0 + 1, step.1)
  }

  /** Parses a whole command line, then passes the rule kind and target label
      to the dependency-module builder. */
  function ProcessCommandlineArgs(args: seq<string>): Result<Request, CommandLineError> {
    var req :- ParseFrom(args, 0, Initial);
    Success(AddCall(AddCall(req, SetRuleKind(req.ruleKind)), SetTargetLabel(req.targetLabel)))
  }

  /** An argument at a flag position that neither switch recognises ends the
      parse with an "unknown option" error naming it. */
  lemma UnknownOptionRejected(args: seq<string>, i: nat, req: Request)
    requires i < |args| && !Handles(MainSwitch, args[i]) && !Handles(ArgSwitch, args[i])
    ensures ParseFrom(args, i, req) == Failure(UnknownOption(args[i]))
    ensures UnknownOption(args[i]).Message() == "unknown option : '" + args[i] + "'"
  {
    SelectDefault(MainSwitch, args[i], 0);
    ProcessArgDefault(args[i], args, i, req);
  }

  /** The index of the last argument a collecting flag consumes when the first
      argument after it with the terminator prefix is at `k`: the one before it,
      or the end of the list when there is no terminator. */
  function LastBefore(args: seq<string>, k: nat): nat
    requires k > 0
  {
    if k < |args| then k - 1 else |args|
  }

  /** "--output" consumes exactly the next argument, which becomes the output jar. */
  lemma OutputConsumesOneArgument(args: seq<string>, i: nat, req: Request)
    requires i < |args| && args[i] == "--output"
    ensures i + 1 < |args| ==> ProcessFlag(args, i, req) == Success((i + 1, req.(outputJar := Some(args[i + 1]))))
    ensures i + 1 >= |args| ==> ProcessFlag(args, i, req) == Failure(MissingArgument("--output"))
  {
    assert ArgSwitch[9].1 == Output;
    ArgStep(args, i, req, 9);
  }

  /** "--classdir" consumes exactly the next argument, which becomes the class directory. */
  lemma ClassDirConsumesOneArgument(args: seq<string>, i: nat, req: Request)
    requires i < |args| && args[i] == "--classdir"
    ensures i + 1 < |args| ==> ProcessFlag(args, i, req) == Success((i + 1, req.(classDir := args[i + 1])))
    ensures i + 1 >= |args| ==> ProcessFlag(args, i, req) == Failure(MissingArgument("--classdir"))
  {
    assert ArgSwitch[10].1 == ClassDir;
    ArgStep(args, i, req, 10);
  }

  /** "--classpath" consumes exactly the next argument, which becomes the class path. */
  lemma ClassPathConsumesOneArgument(args: seq<string>, i: nat, req: Request)
    requires i < |args| && args[i] == "--classpath"
    ensures i + 1 < |args| ==> ProcessFlag(args, i, req) == Success((i + 1, req.(classPath := Some(args[i + 1]))))
    ensures i + 1 >= |args| ==> ProcessFlag(args, i, req) == Failure(MissingArgument("--classpath"))
  {
    assert ArgSwitch[6].1 == ClassPath;
    ArgStep(args, i, req, 6);
  }

  /** "--compress_jar" consumes no argument. */
  lemma CompressJarConsumesNothing(args: seq<string>, i: nat, req: Request)
    requires i < |args| && args[i] == "--compress_jar"
    ensures ProcessFlag(args, i, req) == Success((i, req.(compressJar := true)))
  {
    assert ArgSwitch[14].1 == CompressJar;
    ArgStep(args, i, req, 14);
  }

  /** A later single-value flag overrides an earlier one. */
  lemma LaterOutputOverridesEarlier(first: string, second: string)
    ensures var r := ProcessCommandlineArgs(["--output", first, "--output", second]);
            r.Success? && r.value.outputJar == Some(second)
  {
    var args := ["--output", first, "--output", second];
    var once := Initial.(outputJar := Some(first));
    var twice := once.(outputJar := Some(second));
    OutputConsumesOneArgument(args, 0, Initial);
    assert ParseFrom(args, 0, Initial) == ParseFrom(args, 2, once);
    OutputConsumesOneArgument(args, 2, once);
    assert ParseFrom(args, 2, once) == ParseFrom(args, 4, twice);
    ParseAtEnd(args, 4, twice);
  }

  /** "--direct_dependency" consumes exactly two arguments, the jar and the target. */
  lemma DirectDependencyConsumesTwoArguments(args: seq<string>, i: nat, req: Request)
    requires i < |args| && args[i] == "--direct_dependency"
    ensures i + 2 < |args| ==>
              ProcessFlag(args, i, req) == Success((i + 2, AddCall(req, AddDirectMapping(args[i + 1], args[i + 2]))))
    ensures i + 2 >= |args| ==> ProcessFlag(args, i, req) == Failure(MissingArgument("--direct_dependency"))
  {
    assert MainSwitch[1].1 == DirectDependency;
    MainStep(args, i, req, 1);
  }

  /** "--indirect_dependency" consumes exactly two arguments, the jar and the target. */
  lemma IndirectDependencyConsumesTwoArguments(args: seq<string>, i: nat, req: Request)
    requires i < |args| && args[i] == "--indirect_dependency"
    ensures i + 2 < |args| ==>
              ProcessFlag(args, i, req) == Success((i + 2, AddCall(req, AddIndirectMapping(args[i + 1], args[i + 2]))))
    ensures i + 2 >= |args| ==> ProcessFlag(args, i, req) == Failure(MissingArgument("--indirect_dependency"))
  {
    assert MainSwitch[2].1 == IndirectDependency;
    MainStep(args, i, req, 2);
  }

  /** "--strict_java_deps" hands the next argument to the dependency-module builder as the strict-dependencies mode. */
  lemma StrictJavaDepsConsumesOneArgument(args: seq<string>, i: nat, req: Request)
    requires i < |args| && args[i] == "--strict_java_deps"
    ensures i + 1 < |args| ==> ProcessFlag(args, i, req) == Success((i + 1, AddCall(req, SetStrictJavaDeps(args[i + 1]))))
    ensures i + 1 >= |args| ==> ProcessFlag(args, i, req) == Failure(MissingArgument("--strict_java_deps"))
  {
    assert MainSwitch[3].1 == StrictJavaDeps;
    MainStep(args, i, req, 3);
  }

  /** "--output_deps" hands the next argument to the dependency-module builder as the dependencies output file. */
  lemma OutputDepsConsumesOneArgument(args: seq<string>, i: nat, req: Request)
    requires i < |args| && args[i] == "--output_deps"
    ensures i + 1 < |args| ==> ProcessFlag(args, i, req) == Success((i + 1, AddCall(req, SetOutputDepsFile(args[i + 1]))))
    ensures i + 1 >= |args| ==> ProcessFlag(args, i, req) == Failure(MissingArgument("--output_deps"))
  {
    assert MainSwitch[4].1 == OutputDeps;
    MainStep(args, i, req, 4);
  }

  /** "--output_deps_proto" hands the next argument to the dependency-module builder as the dependencies proto file. */
  lemma OutputDepsProtoConsumesOneArgument(args: seq<string>, i: nat, req: Request)
    requires i < |args| && args[i] == "--output_deps_proto"
    ensures i + 1 < |args| ==> ProcessFlag(args, i, req) == Success((i + 1, AddCall(req, SetOutputDepsProtoFile(args[i + 1]))))
    ensures i + 1 >= |args| ==> ProcessFlag(args, i, req) == Failure(MissingArgument("--output_deps_proto"))
  {
    assert MainSwitch[5].1 == OutputDepsProto;
    MainStep(args, i, req, 5);
  }

  /** "--tool_context_proto" takes the next argument as the tool context proto file. */
  lemma ToolContextProtoConsumesOneArgument(args: seq<string>, i: nat, req: Request)
    requires i < |args| && args[i] == "--tool_context_proto"
    ensures i + 1 < |args| ==> ProcessFlag(args, i, req) == Success((i + 1, req.(toolContextProtoFile := Some(args[i + 1]))))
    ensures i + 1 >= |args| ==> ProcessFlag(args, i, req) == Failure(MissingArgument("--tool_context_proto"))
  {
    assert MainSwitch[6].1 == ToolContextProto;
    MainStep(args, i, req, 6);
  }

  /** "--sourcegendir" takes the next argument as the generated-source directory. */
  lemma SourceGenDirConsumesOneArgument(args: seq<string>, i: nat, req: Request)
    requires i < |args| && args[i] == "--sourcegendir"
    ensures i + 1 < |args| ==> ProcessFlag(args, i, req) == Success((i + 1, req.(sourceGenDir := Some(args[i + 1]))))
    ensures i + 1 >= |args| ==> ProcessFlag(args, i, req) == Failure(MissingArgument("--sourcegendir"))
  {
    assert MainSwitch[9].1 == SourceGenDir;
    MainStep(args, i, req, 9);
  }

  /** "--generated_sources_output" takes the next argument as the generated-sources jar. */
  lemma GeneratedSourcesOutputConsumesOneArgument(args: seq<string>, i: nat, req: Request)
    requires i < |args| && args[i] == "--generated_sources_output"
    ensures i + 1 < |args| ==> ProcessFlag(args, i, req) == Success((i + 1, req.(generatedSourcesOutputJar := Some(args[i + 1]))))
    ensures i + 1 >= |args| ==> ProcessFlag(args, i, req) == Failure(MissingArgument("--generated_sources_output"))
  {
    assert MainSwitch[10].1 == GeneratedSourcesOutput;
    MainStep(args, i, req, 10);
  }

  /** "--processorpath" takes the next argument as the processor path. */
  lemma ProcessorPathConsumesOneArgument(args: seq<string>, i: nat, req: Request)
    requires i < |args| && args[i] == "--processorpath"
    ensures i + 1 < |args| ==> ProcessFlag(args, i, req) == Success((i + 1, req.(processorPath := args[i + 1])))
    ensures i + 1 >= |args| ==> ProcessFlag(args, i, req) == Failure(MissingArgument("--processorpath"))
  {
    assert ArgSwitch[7].1 == ProcessorPath;
    ArgStep(args, i, req, 7);
  }

  /** "--tempdir" takes the next argument as the temporary directory. */
  lemma TempDirConsumesOneArgument(args: seq<string>, i: nat, req: Request)
    requires i < |args| && args[i] == "--tempdir"
    ensures i + 1 < |args| ==> ProcessFlag(args, i, req) == Success((i + 1, req.(tempDir := args[i + 1])))
    ensures i + 1 >= |args| ==> ProcessFlag(args, i, req) == Failure(MissingArgument("--tempdir"))
  {
    assert ArgSwitch[11].1 == TempDir;
    ArgStep(args, i, req, 11);
  }

  /** "--gendir" takes the next argument as the generated-files directory. */
  lemma GenDirConsumesOneArgument(args: seq<string>, i: nat, req: Request)
    requires i < |args| && args[i] == "--gendir"
    ensures i + 1 < |args| ==> ProcessFlag(args, i, req) == Success((i + 1, req.(genDir := Some(args[i + 1]))))
    ensures i + 1 >= |args| ==> ProcessFlag(args, i, req) == Failure(MissingArgument("--gendir"))
  {
    assert ArgSwitch[12].1 == GenDir;
    ArgStep(args, i, req, 12);
  }

  /** "--rule_kind" takes the next argument as the rule kind. */
  lemma RuleKindConsumesOneArgument(args: seq<string>, i: nat, req: Request)
    requires i < |args| && args[i] == "--rule_kind"
    ensures i + 1 < |args| ==> ProcessFlag(args, i, req) == Success((i + 1, req.(ruleKind := Some(args[i + 1]))))
    ensures i + 1 >= |args| ==> ProcessFlag(args, i, req) == Failure(MissingArgument("--rule_kind"))
  {
    assert ArgSwitch[15].1 == RuleKind;
    ArgStep(args, i, req, 15);
  }

  /** "--target_label" takes the next argument as the target label. */
  lemma TargetLabelConsumesOneArgument(args: seq<string>, i: nat, req: Request)
    requires i < |args| && args[i] == "--target_label"
    ensures i + 1 < |args| ==> ProcessFlag(args, i, req) == Success((i + 1, req.(targetLabel := Some(args[i + 1]))))
    ensures i + 1 >= |args| ==> ProcessFlag(args, i, req) == Failure(MissingArgument("--target_label"))
  {
    assert ArgSwitch[16].1 == TargetLabel;
    ArgStep(args, i, req, 16);
  }

  /** "--source_jars" appends the arguments up to the next "-" flag to the source jars. */
  lemma SourceJarsStopAtDash(args: seq<string>, i: nat, k: nat, req: Request)
    requires i < k <= |args| && args[i] == "--source_jars"
    requires forall j :: i < j < k ==> !StartsWith(args[j], "-")
    requires k < |args| ==> StartsWith(args[k], "-")
    ensures ProcessFlag(args, i, req) ==
              Success((LastBefore(args, k), req.(sourceJars := req.sourceJars + args[i + 1..k])))
  {
    assert ArgSwitch[1].1 == SourceJars;
    ArgStep(args, i, req, 1);
    CollectStopsAtFirstTerminator(args, i, "-", k);
  }

  /** "--messages" appends the arguments up to the next "-" flag to the message files. */
  lemma MessagesStopAtDash(args: seq<string>, i: nat, k: nat, req: Request)
    requires i < k <= |args| && args[i] == "--messages"
    requires forall j :: i < j < k ==> !StartsWith(args[j], "-")
    requires k < |args| ==> StartsWith(args[k], "-")
    ensures ProcessFlag(args, i, req) ==
              Success((LastBefore(args, k), req.(messageFiles := req.messageFiles + args[i + 1..k])))
  {
    assert ArgSwitch[2].1 == Messages;
    ArgStep(args, i, req, 2);
    CollectStopsAtFirstTerminator(args, i, "-", k);
  }

  /** "--resource_jars" appends the arguments up to the next "-" flag to the resource jars. */
  lemma ResourceJarsStopAtDash(args: seq<string>, i: nat, k: nat, req: Request)
    requires i < k <= |args| && args[i] == "--resource_jars"
    requires forall j :: i < j < k ==> !StartsWith(args[j], "-")
    requires k < |args| ==> StartsWith(args[k], "-")
    ensures ProcessFlag(args, i, req) ==
              Success((LastBefore(args, k), req.(resourceJars := req.resourceJars + args[i + 1..k])))
  {
    assert ArgSwitch[4].1 == ResourceJars;
    ArgStep(args, i, req, 4);
    CollectStopsAtFirstTerminator(args, i, "-", k);
  }

  /** "--classpath_resources" appends the arguments up to the next "-" flag to the root resource files. */
  lemma ClasspathResourcesStopAtDash(args: seq<string>, i: nat, k: nat, req: Request)
    requires i < k <= |args| && args[i] == "--classpath_resources"
    requires forall j :: i < j < k ==> !StartsWith(args[j], "-")
    requires k < |args| ==> StartsWith(args[k], "-")
    ensures ProcessFlag(args, i, req) ==
              Success((LastBefore(args, k), req.(rootResourceFiles := req.rootResourceFiles + args[i + 1..k])))
  {
    assert ArgSwitch[5].1 == ClasspathResources;
    ArgStep(args, i, req, 5);
    CollectStopsAtFirstTerminator(args, i, "-", k);
  }

  /** "--reduce_classpath" consumes no argument and tells the dependency-module
      builder to reduce the class path. */
  lemma ReduceClasspathConsumesNothing(args: seq<string>, i: nat, req: Request)
    requires i < |args| && args[i] == "--reduce_classpath"
    ensures ProcessFlag(args, i, req) == Success((i, AddCall(req, SetReduceClasspath)))
  {
    assert MainSwitch[8].1 == ReduceClasspath;
    MainStep(args, i, req, 8);
  }

  /** Past the end of the list, parsing stops wherever the index points. */
  lemma ParseAtEnd(args: seq<string>, i: nat, req: Request)
    requires i >= |args|
    ensures ParseFrom(args, i, req) == Success(req)
  {
  }

  /** "--sources" collects every argument up to the next one starting with "-";
      the loop resumes at that argument. */
  lemma SourcesStopAtDash(args: seq<string>, i: nat, k: nat, req: Request)
    requires i < k <= |args| && args[i] == "--sources"
    requires forall j :: i < j < k ==> !StartsWith(args[j], "-")
    requires k < |args| ==> StartsWith(args[k], "-")
    ensures ProcessFlag(args, i, req) ==
              Success((LastBefore(args, k), req.(sourceFiles := req.sourceFiles + args[i + 1..k])))
  {
    assert ArgSwitch[0].1 == Sources;
    ArgStep(args, i, req, 0);
    CollectStopsAtFirstTerminator(args, i, "-", k);
  }

  /** "--resources" collects every argument up to the next one starting with "-". */
  lemma ResourcesStopAtDash(args: seq<string>, i: nat, k: nat, req: Request)
    requires i < k <= |args| && args[i] == "--resources"
    requires forall j :: i < j < k ==> !StartsWith(args[j], "-")
    requires k < |args| ==> StartsWith(args[k], "-")
    ensures ProcessFlag(args, i, req) ==
              Success((LastBefore(args, k), req.(resourceFiles := req.resourceFiles + args[i + 1..k])))
  {
    assert ArgSwitch[3].1 == Resources;
    ArgStep(args, i, req, 3);
    CollectStopsAtFirstTerminator(args, i, "-", k);
  }

  /** "--javacopts" collects every argument up to the next one starting with
      "--", so single-dash javac options are collected. */
  lemma JavacOptsStopAtDoubleDash(args: seq<string>, i: nat, k: nat, req: Request)
    requires i < k <= |args| && args[i] == "--javacopts"
    requires forall j :: i < j < k ==> !StartsWith(args[j], "--")
    requires k < |args| ==> StartsWith(args[k], "--")
    ensures ProcessFlag(args, i, req) ==
              Success((LastBefore(args, k), req.(javacOpts := req.javacOpts + args[i + 1..k])))
  {
    assert MainSwitch[0].1 == JavacOpts;
    MainStep(args, i, req, 0);
    CollectStopsAtFirstTerminator(args, i, "--", k);
  }

  /** "--deps_artifacts" hands the arguments up to the next "--" flag to the
      dependency-module builder as one call. */
  lemma DepsArtifactsStopAtDoubleDash(args: seq<string>, i: nat, k: nat, req: Request)
    requires i < k <= |args| && args[i] == "--deps_artifacts"
    requires forall j :: i < j < k ==> !StartsWith(args[j], "--")
    requires k < |args| ==> StartsWith(args[k], "--")
    ensures ProcessFlag(args, i, req) ==
              Success((LastBefore(args, k), AddCall(req, AddDepsArtifacts(args[i + 1..k]))))
  {
    assert MainSwitch[7].1 == DepsArtifacts;
    MainStep(args, i, req, 7);
    CollectStopsAtFirstTerminator(args, i, "--", k);
  }

  /** "--post_processor" takes a name, then the arguments up to the next "--" flag. */
  lemma PostProcessorStopsAtDoubleDash(args: seq<string>, i: nat, k: nat, req: Request)
    requires i + 1 < k <= |args| && args[i] == "--post_processor"
    requires forall j :: i + 1 < j < k ==> !StartsWith(args[j], "--")
    requires k < |args| ==> StartsWith(args[k], "--")
    ensures ProcessFlag(args, i, req) ==
              Success((LastBefore(args, k), req.(postProcessors := req.postProcessors
                                                   + [PostProcessorSpec(args[i + 1], args[i + 2..k])])))
  {
    assert ArgSwitch[13].1 == PostProcessor;
    ArgStep(args, i, req, 13);
    PostProcessorArguments(args, i, k, req);
  }

  /** The post-processor case reads the name, then collects from the argument
      after it up to the next "--" flag. */
  lemma PostProcessorArguments(args: seq<string>, i: nat, k: nat, req: Request)
    requires i + 1 < k <= |args|
    requires forall j :: i + 1 < j < k ==> !StartsWith(args[j], "--")
    requires k < |args| ==> StartsWith(args[k], "--")
    ensures AddExternalPostProcessor(args, i, "--post_processor", req) ==
              Success((LastBefore(args, k), req.(postProcessors := req.postProcessors
                                                   + [PostProcessorSpec(args[i + 1], args[i + 2..k])])))
  {
    CollectStopsAtFirstTerminator(args, i + 1, "--", k);
  }

  /** "--processors" fails the parse when a name it collects before the next
      "-" flag contains a comma. */
  lemma ProcessorsRejectCommas(args: seq<string>, i: nat, k: nat, req: Request, j: nat)
    requires i < k <= |args| && args[i] == "--processors"
    requires forall m :: i < m < k ==> !StartsWith(args[m], "-")
    requires k < |args| ==> StartsWith(args[k], "-")
    requires i < j < k && ',' in args[j]
    ensures ProcessFlag(args, i, req).Failure?
    ensures ProcessFlag(args, i, req).error.ProcessorArgumentWithComma?
  {
    assert ArgSwitch[8].1 == Processors;
    ArgStep(args, i, req, 8);
    CollectStopsAtFirstTerminator(args, i, "-", k);
    assert args[i + 1..k][j - i - 1] == args[j];
  }

  /** "--processors" appends the names up to the next "-" flag when none of
      them contains a comma. */
  lemma ProcessorsAppendNames(args: seq<string>, i: nat, k: nat, req: Request)
    requires i < k <= |args| && args[i] == "--processors"
    requires forall m :: i < m < k ==> !StartsWith(args[m], "-")
    requires k < |args| ==> StartsWith(args[k], "-")
    requires forall m :: i < m < k ==> ',' !in args[m]
    ensures ProcessFlag(args, i, req) ==
              Success((LastBefore(args, k), req.(processorNames := req.processorNames + args[i + 1..k])))
  {
    assert ArgSwitch[8].1 == Processors;
    ArgStep(args, i, req, 8);
    CollectStopsAtFirstTerminator(args, i, "-", k);
  }

  /** The class directory, the temporary directory and the processor path keep
      their defaults. */
  predicate KeepsDefaults(req: Request) {
    req.classDir == "classes" && req.tempDir == "_tmp" && req.processorPath == ""
  }

  predicate NoDirectoryFlags(args: seq<string>) {
    "--classdir" !in args && "--tempdir" !in args && "--processorpath" !in args
  }

  /** No case of the main switch touches the three fields. */
  lemma MainCaseKeepsDefaults(flag: MainFlag, args: seq<string>, i: nat, req: Request)
    requires i < |args| && KeepsDefaults(req)
    ensures MainCase(flag, args, i, req).Success? ==> KeepsDefaults(MainCase(flag, args, i, req).value.1)
  {
  }

  /** Only the cases for "--classdir", "--tempdir" and "--processorpath" of the
      second switch change the three fields. */
  lemma ArgCaseKeepsDefaults(flag: ArgFlag, arg: string, args: seq<string>, i: nat, req: Request)
    requires i < |args| && KeepsDefaults(req)
    requires flag != ClassDir && flag != TempDir && flag != ProcessorPath
    ensures ArgCase(flag, arg, args, i, req).Success? ==> KeepsDefaults(ArgCase(flag, arg, args, i, req).value.1)
  {
  }

  lemma ProcessArgKeepsDefaults(arg: string, args: seq<string>, i: nat, req: Request)
    requires i < |args| && KeepsDefaults(req)
    requires arg != "--classdir" && arg != "--tempdir" && arg != "--processorpath"
    ensures ProcessArg(arg, args, i, req).Success? ==> KeepsDefaults(ProcessArg(arg, args, i, req).value.1)
  {
    var selected := Select(ArgSwitch, arg, 0);
    if selected.Some? {
      SelectedEntry(ArgSwitch, arg, 0);
      DirectoryCases();
      ArgCaseKeepsDefaults(selected.value, arg, args, i, req);
    }
  }

  lemma ProcessFlagKeepsDefaults(args: seq<string>, i: nat, req: Request)
    requires i < |args| && NoDirectoryFlags(args) && KeepsDefaults(req)
    ensures ProcessFlag(args, i, req).Success? ==> KeepsDefaults(ProcessFlag(args, i, req).value.1)
  {
    var selected := Select(MainSwitch, args[i], 0);
    if selected.Some? {
      MainCaseKeepsDefaults(selected.value, args, i, req);
    } else {
      assert args[i] in args;
      ProcessArgKeepsDefaults(args[i], args, i, req);
    }
  }

  lemma {:induction false} ParseKeepsDefaults(args: seq<string>, i: nat, req: Request)
    requires NoDirectoryFlags(args) && KeepsDefaults(req)
    ensures ParseFrom(args, i, req).Success? ==> KeepsDefaults(ParseFrom(args, i, req).value)
    decreases if i < |args| then |args| - i else 0
  {
    if i < |args| {
      ProcessFlagKeepsDefaults(args, i, req);
      var step := ProcessFlag(args, i, req);
      if step.Success? {
        ParseKeepsDefaults(args, step.value.0 + 1, step.value.1);
      }
    }
  }

  /** Without "--classdir", "--tempdir" or "--processorpath" anywhere on the
      command line, the class directory is "classes", the temporary directory
      "_tmp" and the processor path empty. */
  lemma DefaultsWithoutOverrides(args: seq<string>)
    requires NoDirectoryFlags(args)
    ensures ProcessCommandlineArgs(args).Success? ==> KeepsDefaults(ProcessCommandlineArgs(args).value)
  {
    ParseKeepsDefaults(args, 0, Initial);
  }
}

=== FILE: labels.dfy ===
/** Build labels (`//package:name`). Only the two parts the model compares are kept. */
module Labels {

  datatype Label = Label(packageName: string, name: string)
}

=== FILE: paths.dfy ===
/** Relative path fragments, reduced to their segment lists. */
module Paths {
  import opened Collections

  datatype PathFragment = PathFragment(segments: seq<string>)
  {
    /** The printable form: segments joined by '/', and "." for the empty fragment. */
    function SafePathString(): string {
      if segments == [] then "." else Join(segments)
    }

    /** The fragment without its last segment; an empty fragment has no parent. */
    function ParentDirectory(): (p: PathFragment)
      requires segments != []
      ensures p.segments + [segments[|segments| - 1]] == segments
    {
      PathFragment(segments[..|segments| - 1])
    }
  }

  function Join(segments: seq<string>): (s: string)
    requires segments != []
    ensures |s| >= |segments| - 1
  {
    if |segments| == 1 then segments[0] else segments[0] + "/" + Join(segments[1..])
  }
}

=== FILE: wrappers.dfy ===
/** Failure-carrying result types shared by every module of the model.
    `None` stands for a Java `null` / absent `Optional`; `Failure` stands for
    a thrown checked exception. */
module Wrappers {

  datatype Option<+T> = None | Some(value: T)

  /** Usable with `:-`, so that a failure propagates like a thrown exception. */
  datatype Result<+R, +E> = Success(value: R) | Failure(error: E)
  {
    predicate IsFailure() {
      Failure?
    }

    function PropagateFailure<U>(): Result<U, E>
      requires Failure?
    {
      Failure(error)
    }

    function Extract(): R
      requires Success?
    {
      value
    }
  }
}

=== FILE: xcode_provider.dfy ===
/** The provider that carries Xcode project information between Objective-C
    targets: its builder, its validity checks, the list of targets that an
    `.xcodeproj` needs, and the dependency and path rules of each target's
    control record. */
module XcodeProvider {
  import opened Wrappers
  import opened Collections
  import opened Paths
  import opened Labels
  import IosSdkCommands

  /** Xcode product types; only the three that can link against dependencies
      are told apart, every other kind is kept by its identifier. */
  datatype ProductType = Application | Bundle | UnitTest | OtherProduct(identifier: string)

  datatype Artifact = Artifact(execPath: string)

  datatype CompilationArtifacts = CompilationArtifacts(
    srcs: seq<Artifact>,
    nonArcSrcs: seq<Artifact>,
    archive: Option<Artifact>,
    pchFile: Option<Artifact>)

  datatype InfoplistMerging = InfoplistMerging(plistWithEverything: Option<Artifact>)

  /** The keys of the Objective-C provider that a target control reads. */
  datatype ObjcProvider = ObjcProvider(
    includeDirs: seq<PathFragment>,
    sdkInclude: seq<PathFragment>,
    // The force-load key holds paths as Xcode sees them, already strings.
    forceLoadForXcodegen: seq<string>,
    weakSdkFrameworks: seq<string>,
    sdkDylib: seq<string>,
    usesCpp: bool)

  datatype Provider = Provider(
    ruleLabel: Label,
    userHeaderSearchPaths: seq<PathFragment>,
    infoplistMerging: Option<InfoplistMerging>,
    dependencies: seq<Provider>,
    xcodeprojBuildSettings: seq<IosSdkCommands.BuildSetting>,
    copts: seq<string>,
    productType: ProductType,
    headers: seq<Artifact>,
    compilationArtifacts: Option<CompilationArtifacts>,
    objcProvider: ObjcProvider,
    testHost: Option<Provider>)

  /** What every provider produced by `Build` satisfies: its dependency set lists
      each provider once, and only unit tests have a test host. */
  predicate Valid(p: Provider) {
    && NoDuplicates(p.dependencies)
    && (p.testHost.Some? ==> p.productType == UnitTest)
  }

  /** Why `Build` refuses a builder: the test-host check, then the three
      mandatory fields in the order the constructor checks them. */
  datatype BuildError =
    | TestHostNotAllowed(productType: Option<ProductType>)
    | MissingLabel
    | MissingProductType
    | MissingObjcProvider

  /** A provider under construction. `dependencies` records every provider
      added to the dependency set, in insertion order, repetitions included. */
  datatype Builder = Builder(
    ruleLabel: Option<Label>,
    userHeaderSearchPaths: seq<PathFragment>,
    infoplistMerging: Option<InfoplistMerging>,
    dependencies: seq<Provider>,
    xcodeprojBuildSettings: seq<IosSdkCommands.BuildSetting>,
    copts: seq<string>,
    productType: Option<ProductType>,
    headers: seq<Artifact>,
    compilationArtifacts: Option<CompilationArtifacts>,
    objcProvider: Option<ObjcProvider>,
    testHost: Option<Provider>)
  {
    /** Adds each direct dependency together with that dependency's own
        dependency set; no other field changes. */
    function AddDependencies(deps: seq<Provider>): (b: Builder)
      ensures b == this.(dependencies := b.dependencies)
      ensures forall d :: d in b.dependencies <==>
                d in dependencies || d in deps || exists p :: p in deps && d in p.dependencies
      decreases |deps|
    {
      if deps == [] then this
      else
        var next := this.(dependencies := dependencies + [deps[0]] + deps[0].dependencies);
        var b := next.AddDependencies(deps[1..]);
        assert forall p :: p in deps <==> p == deps[0] || p in deps[1..];
        b
    }

    /** Freezes the builder into a provider, rejecting a test host on anything
        but a unit test and any missing mandatory field. */
    function Build(): (r: Result<Provider, BuildError>)
      ensures r.Success? <==>
                && (testHost.None? || productType == Some(UnitTest))
                && ruleLabel.Some? && productType.Some? && objcProvider.Some?
      ensures testHost.Some? && productType != Some(UnitTest) ==>
                r == Failure(TestHostNotAllowed(productType))
      ensures (testHost.None? || productType == Some(UnitTest)) && ruleLabel.None? ==>
                r == Failure(MissingLabel)
      ensures (testHost.None? || productType == Some(UnitTest)) && ruleLabel.Some? && productType.None? ==>
                r == Failure(MissingProductType)
      ensures (testHost.None? || productType == Some(UnitTest)) && ruleLabel.Some? && productType.Some?
              && objcProvider.None? ==>
                r == Failure(MissingObjcProvider)
      ensures r.Success? ==>
                && Valid(r.value)
                && r.value == Provider(ruleLabel.value, userHeaderSearchPaths, infoplistMerging,
                                       r.value.dependencies, xcodeprojBuildSettings, copts, productType.value,
                                       headers, compilationArtifacts, objcProvider.value, testHost)
                && r.value.dependencies == Deduplicate(dependencies)
                && (forall d :: d in r.value.dependencies <==> d in dependencies)
    {
      if testHost.Some? && productType != Some(UnitTest) then Failure(TestHostNotAllowed(productType))
      else if ruleLabel.None? then Failure(MissingLabel)
      else if productType.None? then Failure(MissingProductType)
      else if objcProvider.None? then Failure(MissingObjcProvider)
      else
        var deps := Deduplicate(dependencies);
        assert forall d :: d in deps <==> d in dependencies by {
          forall d | d in dependencies ensures d in deps {
            var i :| 0 <= i < |dependencies| && dependencies[i] == d;
          }
        }
        Success(Provider(ruleLabel.value, userHeaderSearchPaths, infoplistMerging, deps,
                         xcodeprojBuildSettings, copts, productType.value, headers,
                         compilationArtifacts, objcProvider.value, testHost))
    }
  }

  const EmptyBuilder: Builder :=
    Builder(None, [], None, [], [], [], None, [], None, None, None)

  /** A builder whose fields are all initialised from `p`. */
  function ToBuilder(p: Provider): Builder {
    Builder(Some(p.ruleLabel), p.userHeaderSearchPaths, p.infoplistMerging, p.dependencies,
            p.xcodeprojBuildSettings, p.copts, Some(p.productType), p.headers,
            p.compilationArtifacts, Some(p.objcProvider), p.testHost)
  }

  /** Rebuilding a provider from its own builder reproduces every field. */
  lemma ToBuilderRoundTrip(p: Provider)
    requires Valid(p)
    ensures ToBuilder(p).Build() == Success(p)
  {
    DeduplicateOfDistinct(p.dependencies);
  }

  /** The providers whose controls make up the project, before de-duplication:
      this provider, its dependencies, then the test host and its dependencies. */
  function TargetCandidates(p: Provider): seq<Provider> {
    [p] + p.dependencies
    + (match p.testHost
       case None => []
       case Some(h) => [h] + h.dependencies)
  }

  /** The providers `targets()` emits a control for, each once. */
  function TargetProviders(p: Provider): (r: seq<Provider>)
    ensures |r| > 0 && r[0] == p
    ensures NoDuplicates(r)
    ensures forall q :: q in r <==>
              || q == p
              || q in p.dependencies
              || (p.testHost.Some? && (q == p.testHost.value || q in p.testHost.value.dependencies))
  {
    var candidates := TargetCandidates(p);
    DeduplicateHead(candidates);
    var r := Deduplicate(candidates);
    assert forall q :: q in r <==> q in candidates by {
      forall q | q in candidates ensures q in r {
        var i :| 0 <= i < |candidates| && candidates[i] == q;
      }
    }
    r
  }

  /** The first occurrence of a provider fixes its position in `targets()`. */
  lemma TargetProvidersOrder(p: Provider)
    ensures InFirstOccurrenceOrder(TargetProviders(p), TargetCandidates(p))
  {
    DeduplicateOrder(TargetCandidates(p));
  }

  datatype DependencyControl = DependencyControl(targetLabel: Label, testHost: bool)

  /** The parts of a target control the model keeps. */
  datatype TargetControl = TargetControl(
    name: string,
    targetLabel: Label,
    productType: ProductType,
    userHeaderSearchPaths: seq<string>,
    headerSearchPaths: seq<string>,
    headerFiles: seq<string>,
    copts: seq<string>,
    linkopts: seq<string>,
    buildSettings: seq<IosSdkCommands.BuildSetting>,
    sdkDylibs: seq<string>,
    dependencies: seq<DependencyControl>,
    infoplist: Option<string>,
    sourceFiles: seq<string>,
    nonArcSourceFiles: seq<string>,
    pchPath: Option<string>)

  /** Every provider's target control, in `targets()` order. */
  function Targets(p: Provider): (controls: seq<TargetControl>)
    ensures var providers := TargetProviders(p);
            && |controls| == |providers|
            && forall i :: 0 <= i < |providers| ==> controls[i] == TargetControlOf(providers[i])
  {
    var providers := TargetProviders(p);
    seq(|providers|, i requires 0 <= i < |providers| => TargetControlOf(providers[i]))
  }

  predicate CanLink(t: ProductType) {
    t == Application || t == Bundle || t == UnitTest
  }

  predicate HasArchive(d: Provider) {
    d.compilationArtifacts.Some? && d.compilationArtifacts.value.archive.Some?
  }

  /** Dependency controls for the dependencies that have an archive to link,
      in dependency order. */
  function ArchiveDependencyControls(deps: seq<Provider>): (r: seq<DependencyControl>)
    ensures |r| <= |deps|
    ensures forall c :: c in r ==> !c.testHost && exists d :: d in deps && HasArchive(d) && c.targetLabel == d.ruleLabel
    ensures forall d :: d in deps && HasArchive(d) ==> DependencyControl(d.ruleLabel, false) in r
    ensures r == ControlsAt(deps, ArchivedPositions(deps, 0))
  {
    ArchiveControlsFollowDependencyOrder(deps, 0);
    ArchivedPositionsHaveArchives(deps, 0);
    ArchivedPositionsComplete(deps, 0);
    var r := ArchiveControlsFrom(deps, 0);
    var idx := ArchivedPositions(deps, 0);
    assert forall i :: 0 <= i < |r| ==> r[i] == DependencyControl(deps[idx[i]].ruleLabel, false);
    assert forall d :: d in deps && HasArchive(d) ==> DependencyControl(d.ruleLabel, false) in r by {
      forall d | d in deps && HasArchive(d)
        ensures DependencyControl(d.ruleLabel, false) in r
      {
        var j :| 0 <= j < |deps| && deps[j] == d;
        var i :| 0 <= i < |idx| && idx[i] == j;
        assert r[i] == DependencyControl(d.ruleLabel, false);
      }
    }
    r
  }

  /** The loop over the dependencies from position `k` on. */
  function ArchiveControlsFrom(deps: seq<Provider>, k: nat): seq<DependencyControl>
    requires k <= |deps|
    decreases |deps| - k
  {
    if k == |deps| then []
    else
      var rest := ArchiveControlsFrom(deps, k + 1);
      if HasArchive(deps[k]) then [DependencyControl(deps[k].ruleLabel, false)] + rest else rest
  }

  /** The positions, from `k` on, of the dependencies that have an archive,
      in increasing order. */
  function ArchivedPositions(deps: seq<Provider>, k: nat): (idx: seq<nat>)
    requires k <= |deps|
    ensures |idx| <= |deps| - k
    ensures forall i :: 0 <= i < |idx| ==> k <= idx[i] < |deps|
    decreases |deps| - k
  {
    if k == |deps| then []
    else
      var rest := ArchivedPositions(deps, k + 1);
      if HasArchive(deps[k]) then [k] + rest else rest
  }

  /** Every archived position holds a dependency with an archive. */
  lemma {:induction false} ArchivedPositionsHaveArchives(deps: seq<Provider>, k: nat)
    requires k <= |deps|
    ensures forall i :: 0 <= i < |ArchivedPositions(deps, k)| ==> HasArchive(deps[ArchivedPositions(deps, k)[i]])
    decreases |deps| - k
  {
    if k < |deps| {
      ArchivedPositionsHaveArchives(deps, k + 1);
      var later := ArchivedPositions(deps, k + 1);
      if HasArchive(deps[k]) {
        assert ArchivedPositions(deps, k) == [k] + later;
      } else {
        assert ArchivedPositions(deps, k) == later;
      }
    }
  }

  /** The archived positions increase strictly, so each appears once. */
  lemma {:induction false} ArchivedPositionsIncrease(deps: seq<Provider>, k: nat)
    requires k <= |deps|
    ensures forall i, j :: 0 <= i < j < |ArchivedPositions(deps, k)| ==> ArchivedPositions(deps, k)[i] < ArchivedPositions(deps, k)[j]
    decreases |deps| - k
  {
    if k < |deps| {
      ArchivedPositionsIncrease(deps, k + 1);
      var later := ArchivedPositions(deps, k + 1);
      if HasArchive(deps[k]) {
        var idx := ArchivedPositions(deps, k);
        assert idx == [k] + later;
        forall i, j | 0 <= i < j < |idx|
          ensures idx[i] < idx[j]
        {
          assert idx[j] == later[j - 1] && later[j - 1] > k;
          if i > 0 {
            assert idx[i] == later[i - 1];
          }
        }
      } else {
        assert ArchivedPositions(deps, k) == later;
      }
    }
  }

  /** Every position from `k` on whose dependency has an archive is listed. */
  lemma {:induction false} ArchivedPositionsComplete(deps: seq<Provider>, k: nat)
    requires k <= |deps|
    ensures forall j :: k <= j < |deps| && HasArchive(deps[j]) ==> j in ArchivedPositions(deps, k)
    decreases |deps| - k
  {
    if k < |deps| {
      ArchivedPositionsComplete(deps, k + 1);
      var later := ArchivedPositions(deps, k + 1);
      if HasArchive(deps[k]) {
        var idx := ArchivedPositions(deps, k);
        assert idx == [k] + later;
        forall j | k <= j < |deps| && HasArchive(deps[j])
          ensures j in idx
        {
          if j > k {
            assert j in later;
          }
        }
      } else {
        assert ArchivedPositions(deps, k) == later;
      }
    }
  }

  /** The non-test-host controls for the dependencies at positions `idx`, in that order. */
  function ControlsAt(deps: seq<Provider>, idx: seq<nat>): (r: seq<DependencyControl>)
    requires forall i :: 0 <= i < |idx| ==> idx[i] < |deps|
    ensures |r| == |idx|
    ensures forall i :: 0 <= i < |idx| ==> r[i] == DependencyControl(deps[idx[i]].ruleLabel, false)
  {
    seq(|idx|, i requires 0 <= i < |idx| => DependencyControl(deps[idx[i]].ruleLabel, false))
  }

  /** The loop emits controls in dependency order: the i-th control is for
      the i-th dependency from position `k` on that has an archive. */
  lemma {:induction false} ArchiveControlsFollowDependencyOrder(deps: seq<Provider>, k: nat)
    requires k <= |deps|
    ensures ArchiveControlsFrom(deps, k) == ControlsAt(deps, ArchivedPositions(deps, k))
    decreases |deps| - k
  {
    if k < |deps| {
      ArchiveControlsFollowDependencyOrder(deps, k + 1);
      var later := ArchivedPositions(deps, k + 1);
      if HasArchive(deps[k]) {
        var idx := ArchivedPositions(deps, k);
        assert idx == [k] + later;
        var expected := ControlsAt(deps, idx);
        var shorter := ControlsAt(deps, later);
        assert expected == [DependencyControl(deps[k].ruleLabel, false)] + shorter by {
          forall i | 0 < i < |expected|
            ensures expected[i] == shorter[i - 1]
          {
            assert idx[i] == later[i - 1];
          }
        }
      } else {
        assert ArchivedPositions(deps, k) == later;
      }
    }
  }

  /** The dependencies a target control links against. */
  function LinkedDependencies(p: Provider): (r: seq<DependencyControl>)
    ensures !CanLink(p.productType) ==> r == []
    ensures forall c :: c in r && !c.testHost ==>
              exists d :: d in p.dependencies && HasArchive(d) && c.targetLabel == d.ruleLabel
    ensures CanLink(p.productType) ==>
              forall d :: d in p.dependencies && HasArchive(d) ==> DependencyControl(d.ruleLabel, false) in r
    ensures forall i :: 0 <= i < |r| && r[i].testHost ==>
              i == |r| - 1 && p.testHost.Some? && r[i].targetLabel == p.testHost.value.ruleLabel
    ensures CanLink(p.productType) && p.testHost.Some? ==>
              |r| > 0 && r[|r| - 1] == DependencyControl(p.testHost.value.ruleLabel, true)
    ensures CanLink(p.productType) ==>
              r == ControlsAt(p.dependencies, ArchivedPositions(p.dependencies, 0))
                   + (if p.testHost.Some? then [DependencyControl(p.testHost.value.ruleLabel, true)] else [])
  {
    if !CanLink(p.productType) then []
    else
      var archived := ArchiveDependencyControls(p.dependencies);
      var host := match p.testHost
                  case None => []
                  case Some(h) => [DependencyControl(h.ruleLabel, true)];
      assert forall i :: 0 <= i < |archived| ==> archived[i] in archived;
      archived + host
  }

  function Rooted(prefix: string, path: string): string {
    if path == "." then prefix else prefix + "/" + path
  }

  /** Places every path under a build-setting variable such as
      "$(WORKSPACE_ROOT)"; the empty path becomes the variable itself. */
  function RootEach(prefix: string, paths: seq<PathFragment>): (r: seq<string>)
    requires StartsWith(prefix, "$") && !EndsWith(prefix, "/")
    ensures |r| == |paths|
    ensures forall i :: 0 <= i < |paths| ==> r[i] == Rooted(prefix, paths[i].SafePathString())
  {
    seq(|paths|, i requires 0 <= i < |paths| => Rooted(prefix, paths[i].SafePathString()))
  }

  /** Recovers a path string from its rooted form. */
  function Unroot(prefix: string, rooted: string): string
    requires StartsWith(rooted, prefix)
  {
    if rooted == prefix || |rooted| == |prefix| then "." else rooted[|prefix| + 1..]
  }

  /** Rooting keeps every path recoverable: each result starts with the prefix
      and strips back to the path it came from. */
  lemma RootEachRoundTrip(prefix: string, paths: seq<PathFragment>)
    requires StartsWith(prefix, "$") && !EndsWith(prefix, "/")
    ensures var r := RootEach(prefix, paths);
            forall i :: 0 <= i < |paths| ==>
              StartsWith(r[i], prefix) && Unroot(prefix, r[i]) == paths[i].SafePathString()
  {
    var r := RootEach(prefix, paths);
    forall i | 0 <= i < |paths|
      ensures StartsWith(r[i], prefix) && Unroot(prefix, r[i]) == paths[i].SafePathString()
    {
      var s := paths[i].SafePathString();
      if s != "." {
        assert r[i] == prefix + ("/" + s);
        assert r[i][..|prefix|] == prefix;
      }
    }
  }

  function ExecPaths(artifacts: seq<Artifact>): (paths: seq<string>)
    ensures |paths| == |artifacts|
  {
    seq(|artifacts|, i requires 0 <= i < |artifacts| => artifacts[i].execPath)
  }

  function OptionalExecPath(a: Option<Artifact>): Option<string> {
    match a
    case None => None
    case Some(x) => Some(x.execPath)
  }

  /** The target control emitted for one provider. */
  function TargetControlOf(p: Provider): (t: TargetControl)
    ensures t.targetLabel == p.ruleLabel && t.name == p.ruleLabel.name
    ensures t.dependencies == LinkedDependencies(p)
    ensures |t.sdkDylibs| == |p.objcProvider.sdkDylib| + (if p.objcProvider.usesCpp then 1 else 0)
    ensures t.sdkDylibs[..|p.objcProvider.sdkDylib|] == p.objcProvider.sdkDylib
    ensures p.objcProvider.usesCpp ==> t.sdkDylibs[|t.sdkDylibs| - 1] == "libc++"
    ensures |t.userHeaderSearchPaths| == |p.userHeaderSearchPaths|
    ensures |t.headerSearchPaths| == |p.objcProvider.includeDirs| + |p.objcProvider.sdkInclude|
    ensures t.copts == IosSdkCommands.DefaultCompilerFlags + p.copts
    ensures t.buildSettings == p.xcodeprojBuildSettings + IosSdkCommands.DefaultWarningsForXcode()
  {
    var objc := p.objcProvider;
    var artifacts := p.compilationArtifacts;
    var pch := if artifacts.Some? then artifacts.value.pchFile else None;
    TargetControl(
      p.ruleLabel.name,
      p.ruleLabel,
      p.productType,
      RootEach("$(WORKSPACE_ROOT)", p.userHeaderSearchPaths),
      RootEach("$(WORKSPACE_ROOT)", objc.includeDirs) + RootEach("$(SDKROOT)/usr/include", objc.sdkInclude),
      ExecPaths(p.headers) + (if pch.Some? then [pch.value.execPath] else []),
      IosSdkCommands.DefaultCompilerFlags + p.copts,
      BeforeEach("-force_load", objc.forceLoadForXcodegen)
        + IosSdkCommands.DefaultLinkerFlags
        + BeforeEach("-weak_framework", objc.weakSdkFrameworks),
      p.xcodeprojBuildSettings + IosSdkCommands.DefaultWarningsForXcode(),
      objc.sdkDylib + (if objc.usesCpp then ["libc++"] else []),
      LinkedDependencies(p),
      if p.infoplistMerging.Some? then OptionalExecPath(p.infoplistMerging.value.plistWithEverything) else None,
      if artifacts.Some? then ExecPaths(artifacts.value.srcs) else [],
      if artifacts.Some? then ExecPaths(artifacts.value.nonArcSrcs) else [],
      OptionalExecPath(pch))
  }
}
